=== FILE: README.md ===
# Glowmarkt smart-meter sensors: a Dafny model

This project models the polling and refresh rules of the Glowmarkt
(Hildebrand Glow) integration for Home Assistant. The integration reads a
home's smart electricity and gas meters through the Glowmarkt cloud API. It
shows, per meter, the energy used today, today's cost, the unit rate and the
standing charge. All of that logic sits in `custom_components/glowmarkt/sensor.py`.

The modules follow that file's parts:

- `clock.dfy` (`Clock`): naive local date-times. A date-time is a day ordinal plus hour, minute, second and microsecond. The module also has the time-of-day order and the `replace`/`timedelta` operations the window needs.
- `models.dfy` (`Models`): the records of `models.py` (`Resource`, `Reading`, `TariffRates`, `VirtualEntity`, ...), the errors the core raises, and `Api`. `Api` stands for the API client. It answers every call with a value or a failure, and it never performs I/O.
- `schedule.dfy` (`Schedule`): the update gate `should_update`, the "today" window of `daily_data` with its 01:05 lag, the summation of a daily reading, decimal rounding, and `daily_data` itself.
- `classify.dfy` (`Classify`): the substring tests of `supply_type`, and `device_name`.
- `sensors.dfy` (`Sensors`): one class per entity that keeps state:
  - `UsageSensor` and `CostSensor`, each with an initialised flag and a cached value;
  - `TariffCoordinator`, with its two flags and the data it publishes;
  - `RateSensor` and `StandingSensor`, which copy the published figures.

  Every method states the whole new state. The class invariants (`Valid`) are proved to hold on every path.
- `setup.dfy` (`Setup`): `async_setup_entry`.
  - `SetupPlan` is a pure plan of the entities setup creates.
  - `SetupEntry` builds the sensor objects in the source's two passes per virtual entity. It is proved to build exactly the plan, in order.
  - The lemmas state what every plan looks like.

The clock and the API are parameters. A tick of a sensor takes one `now` and one `Api`.

## Model

| member | source | states |
|---|---|---|
| `Schedule.ShouldUpdate` | custom_components/glowmarkt/sensor.py:367-372 | the gate is due exactly when the minute of the hour is 1 to 5 past the hour or past the half hour (0 <= m < 60 and 1 <= m mod 30 <= 5) |
| `Schedule.ShouldUpdateExamples` | custom_components/glowmarkt/sensor.py:367-372 | minutes 1, 3, 5, 31, 33, 35 are due; 0, 6, 15, 30, 36, 59 are not |
| `Schedule.GateOpensWithinHalfHour` | custom_components/glowmarkt/sensor.py:367-372 | from any minute, a due minute comes within the next 30, so gated polling never stalls |
| `Clock.TimeOfDay` | custom_components/glowmarkt/sensor.py:329 | the time of day used for the 01:05 comparison stays within one day |
| `Clock.Midnight` | custom_components/glowmarkt/sensor.py:335 | zeroing hour to microsecond keeps the date and gives time of day 0 |
| `Clock.TruncateToMinute` | custom_components/glowmarkt/sensor.py:336 | zeroing second and microsecond keeps date, hour and minute, and moves back less than a minute |
| `Clock.PreviousDay` | custom_components/glowmarkt/sensor.py:331 | subtracting one day keeps the time of day and moves the instant back exactly one day |
| `Schedule.DailyWindow` | custom_components/glowmarkt/sensor.py:329-336 | the effective day is yesterday when the time is at or before 01:05:00, else today; `from` is midnight of that day; `to` is the same day with now's hour and minute and zero seconds |
| `Schedule.DailyWindowBounds` | custom_components/glowmarkt/sensor.py:329-336 | from <= to <= now, and now is more than 65 minutes and at most a day plus 65 minutes after `from` |
| `Schedule.DailyWindowExamples` | custom_components/glowmarkt/sensor.py:329-336 | at 00:30 and at 01:05 the window starts at yesterday's midnight; at 01:05:00.000001 and at 02:00 it starts at today's |
| `Schedule.DailyValue` | custom_components/glowmarkt/sensor.py:343-346 | an empty reading is an error (the unguarded `data[0]`), never a zero |
| `Schedule.DailyValueIsSumOfFirstTwo` | custom_components/glowmarkt/sensor.py:343-348 | the daily figure is the sum of the first entry alone, or of the first two entries |
| `Schedule.DailyValueIgnoresLaterEntries` | custom_components/glowmarkt/sensor.py:345-346 | entries after the second never change the figure |
| `Schedule.RoundExact` | custom_components/glowmarkt/sensor.py:136 | rounding leaves a value that already has at most that many decimals unchanged |
| `Schedule.Round` | custom_components/glowmarkt/sensor.py:136 | `round(value, n)` has at most n decimals and moves a value by more than -1/2 and at most +1/2 of 10^-n |
| `Schedule.RoundNearest` | custom_components/glowmarkt/sensor.py:188 | the rounded value is the whole number of 10^-n units nearest the value, and of two equally near the upper one (ties go up) |
| `Schedule.RoundIdempotent` | custom_components/glowmarkt/sensor.py:188 | rounding an already rounded value to the same places changes nothing, so a displayed figure is stable |
| `Schedule.Truthy` | custom_components/glowmarkt/sensor.py:135 | the `if value:` test admits exactly the non-zero figures, of either sign |
| `Schedule.DisplayExamples` | custom_components/glowmarkt/sensor.py:188 | raw cost 1234 is shown as 12.34; raw rate 1550 is shown as 15.5 |
| `Schedule.DailyData` | custom_components/glowmarkt/sensor.py:327-348 | a reading for the resource is requested over the daily window with period P1D; a failed request or an empty reading is the error; otherwise the value is its daily figure and the reset time is the window's midnight |
| `Classify.Contains` | custom_components/glowmarkt/sensor.py:377 | the empty pattern is in every classifier, a classifier contains itself, and a pattern longer than the classifier is never in it |
| `Classify.ContainsIffOccurs` | custom_components/glowmarkt/sensor.py:377 | the substring test holds exactly when the pattern occurs at some position |
| `Classify.ContainsExtended` | custom_components/glowmarkt/sensor.py:377-380 | appending text to a classifier keeps every substring match |
| `Classify.SupplyType` | custom_components/glowmarkt/sensor.py:375-383 | electricity exactly when "electricity.consumption" occurs; gas exactly when it does not and "gas.consumption" does; otherwise an error naming the classifier |
| `Classify.SupplyTypeExamples` | custom_components/glowmarkt/sensor.py:375-383 | both consumption and both cost classifiers map to their supply; "gas.export" is rejected |
| `Classify.CostClassifierHasMeterSupply` | custom_components/glowmarkt/sensor.py:375-380 | a cost classifier has the supply of the consumption classifier it extends |
| `Classify.DeviceName` | custom_components/glowmarkt/sensor.py:359-364 | fails exactly when the supply cannot be found; otherwise "<name> smart <supply> meter" |
| `Classify.DeviceNameBySupply` | custom_components/glowmarkt/sensor.py:359-364 | in one virtual entity, two resources share a device name exactly when they share a supply |
| `Sensors.FetchOutcome` | custom_components/glowmarkt/sensor.py:134-138 | a fetched figure is kept only when it is non-zero; a failed fetch raises that same error; a zero is ignored |
| `Sensors.UsageSensor.constructor` | custom_components/glowmarkt/sensor.py:95-109 | a new usage sensor is uninitialised, shows nothing, and has the resource id as unique id |
| `Sensors.UsageSensor.Update` | custom_components/glowmarkt/sensor.py:130-144 | it fetches exactly when uninitialised or when the gate is due. A non-zero figure becomes the value rounded to 2 places, with the window start as last reset, and marks the sensor initialised. A zero or a failure changes nothing, not even the flag. It keeps `Valid` (value and reset shown exactly once initialised; the reset is a midnight) |
| `Sensors.CostSensor.constructor` | custom_components/glowmarkt/sensor.py:156-170 | a new cost sensor is uninitialised and keyed on the given meter id |
| `Sensors.CostSensor.Update` | custom_components/glowmarkt/sensor.py:183-193 | it is gated like usage. A non-zero figure in pence is shown in pounds rounded to 2 places and marks the sensor initialised. Otherwise nothing changes |
| `Sensors.TariffMap` | custom_components/glowmarkt/sensor.py:217 | the published mapping has exactly the keys "rate" and "standing_charge", holding the fetched figures |
| `Sensors.TariffCoordinator.constructor` | custom_components/glowmarkt/sensor.py:199-208 | both flags start false and nothing is published |
| `Sensors.TariffCoordinator.UpdateData` | custom_components/glowmarkt/sensor.py:210-223 | the first call always fetches; later calls fetch only when the gate is due and otherwise answer {}. The flags become true together on the first successful fetch and are never cleared. `rate_initalised == standing_initalised` is kept |
| `Sensors.TariffCoordinator.Refresh` | custom_components/glowmarkt/sensor.py:196-223 | the answer of an update becomes the published data; a raised update keeps the old data; the data is always empty or both figures |
| `Sensors.RateSensor.constructor` | custom_components/glowmarkt/sensor.py:244-256 | unique id is the resource id + "-rate" |
| `Sensors.RateSensor.HandleCoordinatorUpdate` | custom_components/glowmarkt/sensor.py:258-264 | empty data leaves the value unchanged; otherwise the value becomes the rate / 100 rounded to 4 places |
| `Sensors.StandingSensor.constructor` | custom_components/glowmarkt/sensor.py:294-306 | unique id is the resource id + "-tariff" |
| `Sensors.StandingSensor.HandleCoordinatorUpdate` | custom_components/glowmarkt/sensor.py:308-314 | empty data leaves the value unchanged; otherwise the value becomes the standing charge / 100 rounded to 4 places |
| `Sensors.TariffKeptOutsideGate` | custom_components/glowmarkt/sensor.py:210-223 | the first refresh fetches in any minute; a later refresh in a closed minute publishes {}; the rate and standing sensors keep the first figures |
| `Sensors.UsageKeptOnZero` | custom_components/glowmarkt/sensor.py:130-144 | after a non-zero figure is shown, a later zero figure leaves the shown value and reset time as they were |
| `Setup.IsConsumption` | custom_components/glowmarkt/sensor.py:50-53 | only the two exact consumption classifiers pass the first-pass test, and each has a supply, so its device name can be formed |
| `Setup.ConsumptionPass` | custom_components/glowmarkt/sensor.py:49-66 | the first pass over a virtual entity's resources plans exactly three entities per consumption resource |
| `Setup.CostPass` | custom_components/glowmarkt/sensor.py:68-79 | the second pass plans exactly one entity per cost resource, or raises a KeyError on the meters dict |
| `Setup.VirtualEntityBlock` | custom_components/glowmarkt/sensor.py:46-79 | a virtual entity yields three entities per consumption resource plus one per cost resource, or a KeyError |
| `Setup.EntityPlan` | custom_components/glowmarkt/sensor.py:45-79 | the loop over virtual entities raises only a KeyError on the meters dict or the error of a failed resource listing |
| `Setup.SetupPlan` | custom_components/glowmarkt/sensor.py:28-82 | setup raises only a refused login, a failed virtual-entity listing, a failed resource listing or a KeyError; success means login and listing succeeded |
| `Setup.CostMeterKey` | custom_components/glowmarkt/sensor.py:69-79 | a classifier has a meter key exactly when it is "gas.consumption.cost" or "electricity.consumption.cost"; the key is the consumption classifier it extends with ".cost" |
| `Setup.SetupPlanShape` | custom_components/glowmarkt/sensor.py:50-79 | in every successful setup, every usage, standing (id-tariff) and rate (id-rate) entity sits in a consecutive usage/standing/rate triple of one resource with an exact consumption classifier. Each cost entity is keyed on the unique id of the latest usage entity of its meter classifier planned before it, which is what the meters dict holds then. Every entity's device name can be formed |
| `Setup.BlockCostsLast` | custom_components/glowmarkt/sensor.py:50-79 | within one virtual entity, every cost entity comes after all consumption entities |
| `Setup.MetersSharedAcrossVirtualEntities` | custom_components/glowmarkt/sensor.py:38-79 | the meters dict is shared, so a gas cost resource of a second virtual entity is keyed on the gas meter of the first |
| `Setup.MissingMeterFailsSetup` | custom_components/glowmarkt/sensor.py:75-78 | example: a virtual entity whose only resource is an electricity cost resource makes setup raise a KeyError for "electricity.consumption" |
| `Setup.CostPassSucceeds` | custom_components/glowmarkt/sensor.py:69-79 | the cost pass succeeds exactly when every cost resource finds its key in the meters dict |
| `Setup.CostPassFirstMissing` | custom_components/glowmarkt/sensor.py:69-79 | a failing cost pass raises the KeyError of the first cost resource whose key is missing |
| `Setup.ConsumptionCovered` | custom_components/glowmarkt/sensor.py:50-66 | the first pass plans usage, standing and rate entities, consecutively, for every consumption resource |
| `Setup.CostCovered` | custom_components/glowmarkt/sensor.py:69-79 | the second pass plans a cost entity for every cost resource, keyed on the meters dict entry of its key as the first pass left it |
| `Setup.SetupListsResources` | custom_components/glowmarkt/sensor.py:46-47 | a successful setup has listed the resources of every virtual entity |
| `Setup.ConsumptionPassFrom` | custom_components/glowmarkt/sensor.py:49-66 | every entity of the first pass belongs to one of the virtual entity's own resources with an exact consumption classifier |
| `Setup.CostPassFrom` | custom_components/glowmarkt/sensor.py:68-79 | every entity of a successful second pass is a cost entity of one of the virtual entity's own resources with an exact cost classifier |
| `Setup.BlockFrom` | custom_components/glowmarkt/sensor.py:46-79 | every entity of a virtual entity's block belongs to one of its own resources: usage, standing and rate only for consumption classifiers, cost only for cost classifiers |
| `Setup.EntityPlanFrom` | custom_components/glowmarkt/sensor.py:45-79 | every entity the loop adds belongs to a listed virtual entity and to a resource listed under it |
| `Setup.SetupPlanFromListing` | custom_components/glowmarkt/sensor.py:42-79 | in a successful setup, every entity belongs to a listed virtual entity and to a resource listed under it, with a matching classifier; nothing is invented |
| `Setup.SetupCoversConsumption` | custom_components/glowmarkt/sensor.py:46-66 | in a successful setup, every consumption resource of every listed virtual entity yields its usage (id), standing (id-tariff) and rate (id-rate) entities, consecutively |
| `Setup.SetupCoversCosts` | custom_components/glowmarkt/sensor.py:46-79 | in a successful setup, every cost resource of every listed virtual entity yields a cost entity, keyed on the latest usage entity of its meter classifier registered before it |
| `Setup.NewConsumptionSensors` | custom_components/glowmarkt/sensor.py:54-64 | one consumption resource yields new usage, standing and rate sensors, described by its three planned entities, the last two sharing one new coordinator for the resource; all are unstarted |
| `Setup.TripleRegistered` | custom_components/glowmarkt/sensor.py:54-64 | a usage, standing and rate sensor built for one resource, the last two on one fresh coordinator, are registered as that resource's planned triple |
| `Setup.UnstartedValid` | custom_components/glowmarkt/sensor.py:95-109 | an unstarted usage or cost sensor, and an unstarted coordinator, satisfy their class invariants |
| `Setup.AppendConsumptionSensors` | custom_components/glowmarkt/sensor.py:54-64 | appending a consumption resource's sensors extends the registered list by exactly its planned triple, with new objects only |
| `Setup.AppendCostSensor` | custom_components/glowmarkt/sensor.py:70-79 | appending a cost resource's sensor extends the registered list by exactly its planned cost entity, with a new object only |
| `Setup.AddConsumptionSensors` | custom_components/glowmarkt/sensor.py:49-66 | the first pass appends exactly what the plan's first pass appends, records the same meters, and adds only new, unstarted objects (usage sensors valid and uninitialised, rate and standing sensors without a value, coordinators valid, uninitialised and without data), each standing/rate pair on one coordinator for its resource |
| `Setup.AddCostSensors` | custom_components/glowmarkt/sensor.py:68-79 | the second pass appends exactly the plan's cost entities as new, valid, uninitialised cost sensors, or raises the plan's missing-meter error |
| `Setup.SetupEntry` | custom_components/glowmarkt/sensor.py:28-82 | setup fails exactly when the plan fails, with the same error: failed authentication, a failed listing, or a missing meter. Otherwise it registers the plan's entities in order, each standing/rate pair sharing a coordinator, every object new: usage and cost sensors valid and uninitialised, rate and standing sensors without a value, coordinators valid, uninitialised and without data |
| `Setup.FirstUsageUpdateFetches` | custom_components/glowmarkt/sensor.py:130-135 | after setup, the first refresh of any usage sensor fetches the day's reading in any minute of the hour |
| `Setup.FirstTariffRefreshFetches` | custom_components/glowmarkt/sensor.py:210-217 | after setup, the first refresh of any tariff coordinator fetches the tariff in any minute of the hour |

## Where the code is followed

- An empty daily reading is an error. sensor.py:343 indexes `reading.data[0]` without a guard, so an empty reading raises; the model returns `EmptyReading`, and the sensor keeps its state.
- The meters dict is created once, before the loop over virtual entities (sensor.py:38), so a cost resource can be keyed on a meter of an earlier virtual entity. `Setup.MetersSharedAcrossVirtualEntities` shows this.
- A failed request during polling is raised out of `async_update` and `_async_update_data` (sensor.py:130-144, 183-193, 210-223 have no `try`). The model reports it as `Raised` or as a `Failure` answer, and the state stays as it was.
- The tariff coordinator's first call fetches whatever the gate says, but it sets its flags only after the fetch succeeded (sensor.py:212-215). A first call that raises leaves it uninitialised, so the next call fetches again.

## Left out

- HTTP, authentication and JSON decoding in api.py are not modelled. `Api` gives only their outcomes: whether authentication succeeds, the virtual entities, the resources per entity, the readings per request and the tariff per resource. Setup requests the virtual-entity listing once per client (sensor.py:43; `__init__.py` creates one client per config entry), so the listing is one value of `Api`. The `lru_cache` on that `async def` (api.py:61-62) caches the coroutine object, so a second call on the same client would fail when awaited; no modelled path makes a second call.
- The catchup request (sensor.py:339) is left out. Its answer is ignored and it changes no value; a transport exception from it is not modelled.
- `tariff_data` (sensor.py:351-356) and `get_tariff` are folded into `Api.tariff`, which yields the current rates or an error. Its error is `RequestFailed` for a status other than 200 and `EmptyTariff` for an empty tariff list (api.py:157-160).
- The source reads the clock in `should_update` (sensor.py:369) and twice in `daily_data`: once for the 01:05 test (sensor.py:329) and again for the instant used (sensor.py:331 or 333). The model takes one instant per tick, so reads that straddle a boundary are not modelled: for example, :329 seeing 23:59:59.999999 and :333 seeing 00:00:00.000001 gives a window whose `from` and `to` are both the new midnight, and a gate read in another minute than the fetch.
- `Schedule.Round`: Python's `round` works on binary floats and rounds ties to even. The model rounds exact reals with ties going up. Readings and tariffs are reals, not floats.
- `Schedule.Truthy`: a NaN figure is truthy in Python and would be stored; the model has no NaN. `Schedule.DailyValue` adds exact reals, not floats.
- Home Assistant's scheduling is not modelled: async/await, the 5-minute coordinator interval, `async_write_ha_state`, `async_add_entities(update_before_add=True)`, and the coordinator's listener calls and `last_update_success`. A handler is a method the caller invokes after a refresh.
- `device_info`, `icon` and the static entity attributes (units, device and state classes, names) are presentation metadata. Only `device_name` and the device key of each entity are modelled.
- `Setup.SetupEntry`: the source appends to one list object in place; the model passes the list as a value through the two passes and returns it extended. Order and contents are the same.
- config_flow.py (UI forms) and `__init__.py` (platform wiring) are not part of this model.

=== FILE: classify.dfy ===
/**
  Which supply a resource measures, read off its classifier by substring
  tests, and the name of the device its sensors are grouped under.
 */
module Classify {
  import opened Wrappers
  import opened Models

  const ElectricityConsumption: string := "electricity.consumption"
  const GasConsumption: string := "gas.consumption"
  const ElectricityCost: string := "electricity.consumption.cost"
  const GasCost: string := "gas.consumption.cost"

  /** Python's `sub in s` on strings. */
  predicate Contains(s: string, sub: string): (c: bool)
    ensures sub == [] ==> c
    ensures s == sub ==> c
    ensures c ==> |sub| <= |s|
  {
    |sub| <= |s| && (s[..|sub|] == sub || (|s| > 0 && Contains(s[1..], sub)))
  }

  /** Independent reading of `Contains`: `sub` occurs at some position of `s`. */
  ghost predicate OccursAt(s: string, sub: string, i: int)
  {
    0 <= i <= |s| - |sub| && s[i..i + |sub|] == sub
  }

  lemma {:induction false} ContainsIffOccurs(s: string, sub: string)
    ensures Contains(s, sub) <==> exists i :: OccursAt(s, sub, i)
  {
    if |sub| <= |s| && s[..|sub|] != sub && |s| > 0 {
      ContainsIffOccurs(s[1..], sub);
      if Contains(s[1..], sub) {
        var i :| OccursAt(s[1..], sub, i);
        assert s[i + 1..i + 1 + |sub|] == s[1..][i..i + |sub|];
        assert OccursAt(s, sub, i + 1);
      }
      if i :| OccursAt(s, sub, i) {
        assert i != 0;
        assert s[1..][i - 1..i - 1 + |sub|] == s[i..i + |sub|];
        assert OccursAt(s[1..], sub, i - 1);
      }
    } else if |sub| <= |s| && s[..|sub|] == sub {
      assert OccursAt(s, sub, 0);
    }
  }

  /** Appending text after a classifier keeps every substring it had. */
  lemma ContainsExtended(s: string, sub: string, tail: string)
    requires Contains(s, sub)
    ensures Contains(s + tail, sub)
  {
    ContainsIffOccurs(s, sub);
    var i :| OccursAt(s, sub, i);
    assert (s + tail)[i..i + |sub|] == s[i..i + |sub|];
    assert OccursAt(s + tail, sub, i);
    ContainsIffOccurs(s + tail, sub);
  }

  datatype Supply = Electricity | Gas
  {
    function Name(): string
    {
      match this
      case Electricity => "electricity"
      case Gas => "gas"
    }
  }

  /**
    The supply of a classifier: electricity when it contains
    "electricity.consumption", otherwise gas when it contains
    "gas.consumption", otherwise an error naming the classifier.
   */
  function SupplyType(classifier: string): (r: Result<Supply, Error>)
    ensures r == Success(Electricity) <==> Contains(classifier, ElectricityConsumption)
    ensures r == Success(Gas) <==>
      !Contains(classifier, ElectricityConsumption) && Contains(classifier, GasConsumption)
    ensures r.Failure? ==> r.error == UnknownClassifier(classifier)
  {
    if Contains(classifier, ElectricityConsumption) then Success(Electricity)
    else if Contains(classifier, GasConsumption) then Success(Gas)
    else Failure(UnknownClassifier(classifier))
  }

  /** The four classifiers the platform creates sensors for, and one it rejects. */
  lemma SupplyTypeExamples()
    ensures SupplyType(ElectricityConsumption) == Success(Electricity)
    ensures SupplyType(ElectricityCost) == Success(Electricity)
    ensures SupplyType(GasConsumption) == Success(Gas)
    ensures SupplyType(GasCost) == Success(Gas)
    ensures SupplyType("gas.export").Failure?
  {
    assert ElectricityCost[..|ElectricityConsumption|] == ElectricityConsumption;
    assert GasCost[..|GasConsumption|] == GasConsumption;
  }

  /**
    A cost classifier is the consumption classifier it is charged for with
    ".cost" appended, and both name the same supply.
   */
  lemma CostClassifierHasMeterSupply(meter: string)
    requires meter == ElectricityConsumption || meter == GasConsumption
    ensures SupplyType(meter + ".cost") == SupplyType(meter)
    ensures SupplyType(meter).Success?
  {
    assert meter[..|meter|] == meter;
    ContainsExtended(meter, meter, ".cost");
    if meter == GasConsumption {
      assert |meter + ".cost"| < |ElectricityConsumption|;
    }
  }

  /** `"<virtual entity name> smart <supply> meter"`, failing as SupplyType does. */
  function DeviceName(resource: Resource, virtualEntity: VirtualEntity): (r: Result<string, Error>)
    ensures r.Failure? <==> SupplyType(resource.classifier).Failure?
    ensures r.Failure? ==> r.error == UnknownClassifier(resource.classifier)
    ensures r.Success? ==>
      r.value == virtualEntity.name + " smart " + SupplyType(resource.classifier).value.Name() + " meter"
  {
    match SupplyType(resource.classifier)
    case Failure(e) => Failure(e)
    case Success(supply) => Success(virtualEntity.name + " smart " + supply.Name() + " meter")
  }

  /**
    Resources of the same supply in one virtual entity get the same device
    name, and distinct supplies get distinct names.
   */
  lemma DeviceNameBySupply(a: Resource, b: Resource, virtualEntity: VirtualEntity)
    requires SupplyType(a.classifier).Success? && SupplyType(b.classifier).Success?
    ensures DeviceName(a, virtualEntity) == DeviceName(b, virtualEntity)
            <==> SupplyType(a.classifier) == SupplyType(b.classifier)
  {
    var na := DeviceName(a, virtualEntity).value;
    var nb := DeviceName(b, virtualEntity).value;
    var prefix := virtualEntity.name + " smart ";
    if SupplyType(a.classifier) != SupplyType(b.classifier) {
      // "electricity" and "gas" already differ at their first letter
      assert na[|prefix|] != nb[|prefix|];
    }
  }
}

=== FILE: clock.dfy ===
/**
  Naive local wall-clock time, as Python's `datetime` without a time zone:
  a day ordinal plus the time of day down to the microsecond.
 */
module Clock {

  const MicrosPerSecond: int := 1000000
  const MicrosPerDay: int := 24 * 60 * 60 * MicrosPerSecond

  datatype DateTime = DateTime(day: int, hour: int, minute: int, second: int, microsecond: int)

  /** The ranges Python's `datetime` enforces on its fields. */
  predicate WellFormed(t: DateTime)
  {
    && 0 <= t.hour < 24
    && 0 <= t.minute < 60
    && 0 <= t.second < 60
    && 0 <= t.microsecond < MicrosPerSecond
  }

  /** Microseconds since midnight: the order `datetime.time` comparisons follow. */
  function TimeOfDay(t: DateTime): (r: int)
    ensures WellFormed(t) ==> 0 <= r < MicrosPerDay
  {
    ((t.hour * 60 + t.minute) * 60 + t.second) * MicrosPerSecond + t.microsecond
  }

  /** Microseconds since the start of day ordinal 0. */
  function Instant(t: DateTime): int
  {
    t.day * MicrosPerDay + TimeOfDay(t)
  }

  /** `t.replace(hour=0, minute=0, second=0, microsecond=0)`. */
  function Midnight(t: DateTime): (r: DateTime)
    ensures WellFormed(r) && r.day == t.day && TimeOfDay(r) == 0
  {
    DateTime(t.day, 0, 0, 0, 0)
  }

  /** `t.replace(second=0, microsecond=0)`. */
  function TruncateToMinute(t: DateTime): (r: DateTime)
    requires WellFormed(t)
    ensures WellFormed(r) && r.day == t.day && r.hour == t.hour && r.minute == t.minute
    ensures TimeOfDay(t) - 60 * MicrosPerSecond < TimeOfDay(r) <= TimeOfDay(t)
  {
    DateTime(t.day, t.hour, t.minute, 0, 0)
  }

  /** `t - timedelta(days=1)`: the same time of day on the previous date. */
  function PreviousDay(t: DateTime): (r: DateTime)
    ensures Instant(r) == Instant(t) - MicrosPerDay && TimeOfDay(r) == TimeOfDay(t)
  {
    t.(day := t.day - 1)
  }
}

=== FILE: models.dfy ===
/**
  The records of the metering API and the API itself, seen as an oracle:
  each call either yields a value or fails the way the client raises.
 */
module Models {
  import opened Wrappers
  import opened Clock

  /** The exceptions that leave the core. */
  datatype Error =
    | AuthenticationFailed            // connect: POST /auth answered other than 200
    | RequestFailed                   // any GET answered other than 200
    | EmptyTariff                     // `data[0]` of an empty tariff list
    | EmptyReading                    // `reading.data[0]` of an empty reading
    | UnknownClassifier(classifier: string)  // supply_type's ValueError
    | MissingMeter(key: string)              // KeyError on the meters dict

  datatype ResourceTypeInfo = ResourceTypeInfo(unit: string, kind: string)

  datatype ResourceOverview = ResourceOverview(resourceId: string, resourceTypeId: string, name: string)

  datatype Resource = Resource(
    active: bool,
    resourceTypeId: string,
    ownerId: string,
    name: string,
    description: string,
    displayLabel: string,
    dataSourceResourceTypeInfo: ResourceTypeInfo,
    dataSourceType: string,
    classifier: string,
    baseUnit: string,
    resourceId: string,
    updatedAt: string,
    createdAt: string,
    dataSourceUnitInfo: map<string, string>)

  datatype ReadingData = ReadingData(datestamp: DateTime, value: real)

  datatype Reading = Reading(data: seq<ReadingData>)

  /** Both figures are in minor units (pence). */
  datatype TariffRates = TariffRates(rate: real, standingCharge: real)

  datatype VirtualEntity = VirtualEntity(resources: seq<ResourceOverview>, name: string, id: string)

  /** The aggregation periods the readings endpoint accepts. */
  datatype Period = PT30M30 | PT1H | P1D | P1W | P1M | P1Y

  /**
    What the API answers. `virtualEntities` is a single value because setup lists
    the virtual entities once per client; the other calls depend on their arguments.
    Every call answers `Failure(RequestFailed)` for a status other than 200;
    `tariff` answers `Failure(EmptyTariff)` when the tariff list is empty
    (api.py:157-160), and `reading` may answer a reading with no entries.
   */
  datatype Api = Api(
    authenticates: bool,
    virtualEntities: Result<seq<VirtualEntity>, Error>,
    resources: string -> Result<seq<Resource>, Error>,
    reading: (string, DateTime, DateTime, Period) -> Result<Reading, Error>,
    tariff: string -> Result<TariffRates, Error>)
}

=== FILE: schedule.dfy ===
/**
  The time rules of the sensor platform: the half-hourly update gate, the
  "today" window with its early-morning lag, the summation of a daily
  reading and the decimal rounding of displayed values.
 */
module Schedule {
  import opened Wrappers
  import opened Clock
  import opened Models

  // ---------------------------------------------------------------------------
  // Update gate

  /**
    Due in the first five minutes after the hour and after the half hour:
    within an hour, exactly at 1..5 past each half hour.
   */
  predicate ShouldUpdate(minute: int): (due: bool)
    ensures due <==> 0 <= minute < 60 && 1 <= minute % 30 <= 5
  {
    (1 <= minute <= 5) || (31 <= minute <= 35)
  }

  /** Minutes the gate admits and refuses. */
  lemma ShouldUpdateExamples()
    ensures ShouldUpdate(1) && ShouldUpdate(3) && ShouldUpdate(5)
    ensures ShouldUpdate(31) && ShouldUpdate(33) && ShouldUpdate(35)
    ensures !ShouldUpdate(0) && !ShouldUpdate(6) && !ShouldUpdate(15)
    ensures !ShouldUpdate(30) && !ShouldUpdate(36) && !ShouldUpdate(59)
  {
  }

  /**
    Polling never stalls: from any minute of the clock, some minute among the
    next thirty (this one included) is due.
   */
  lemma GateOpensWithinHalfHour(start: int) returns (wait: int)
    ensures 0 <= wait < 30 && ShouldUpdate((start + wait) % 60)
  {
    var m := start % 60;
    wait := if m <= 1 then 1 - m else if m <= 31 then 31 - m else 61 - m;
    assert start == 60 * (start / 60) + m;
    assert (start + wait) % 60 == (m + wait) % 60;
  }

  // ---------------------------------------------------------------------------
  // Daily window

  /** 01:05:00.000000, the last time of day still counted as the previous day. */
  const LagCutoff: int := TimeOfDay(DateTime(0, 1, 5, 0, 0))

  datatype Window = Window(from: DateTime, to: DateTime)

  /**
    The window a daily reading is requested for: from midnight of the
    effective day up to the effective time cut to the minute, where the
    effective time is now, or one day earlier when the time of day is at or
    before 01:05.
   */
  function DailyWindow(now: DateTime): (w: Window)
    requires WellFormed(now)
    ensures WellFormed(w.from) && WellFormed(w.to)
    ensures w.from.day == w.to.day
    ensures w.from.day == if TimeOfDay(now) <= LagCutoff then now.day - 1 else now.day
    ensures w.from.hour == 0 && w.from.minute == 0 && w.from.second == 0 && w.from.microsecond == 0
    ensures w.to.hour == now.hour && w.to.minute == now.minute
    ensures w.to.second == 0 && w.to.microsecond == 0
  {
    var effective := if TimeOfDay(now) <= LagCutoff then PreviousDay(now) else now;
    Window(Midnight(effective), TruncateToMinute(effective))
  }

  /**
    The window is ordered and never reaches past now; now is always more than
    65 minutes and at most one day and 65 minutes after the window's start.
   */
  lemma DailyWindowBounds(now: DateTime)
    requires WellFormed(now)
    ensures Instant(DailyWindow(now).from) <= Instant(DailyWindow(now).to) <= Instant(now)
    ensures LagCutoff < Instant(now) - Instant(DailyWindow(now).from) <= MicrosPerDay + LagCutoff
  {
    var w := DailyWindow(now);
    assert TimeOfDay(w.from) == 0;
    assert TimeOfDay(w.to) <= TimeOfDay(now);
  }

  /** At 00:30 the window starts at yesterday's midnight; at 02:00 at today's. */
  lemma DailyWindowExamples(day: int)
    ensures DailyWindow(DateTime(day, 0, 30, 0, 0)) == Window(DateTime(day - 1, 0, 0, 0, 0), DateTime(day - 1, 0, 30, 0, 0))
    ensures DailyWindow(DateTime(day, 1, 5, 0, 0)).from == DateTime(day - 1, 0, 0, 0, 0)
    ensures DailyWindow(DateTime(day, 1, 5, 0, 1)).from == DateTime(day, 0, 0, 0, 0)
    ensures DailyWindow(DateTime(day, 2, 0, 0, 0)) == Window(DateTime(day, 0, 0, 0, 0), DateTime(day, 2, 0, 0, 0))
  {
  }

  // ---------------------------------------------------------------------------
  // Daily summation

  /** Reference definition: the sum of the values of a sequence of entries. */
  function Sum(entries: seq<ReadingData>): real
  {
    if entries == [] then 0.0 else Sum(entries[..|entries| - 1]) + entries[|entries| - 1].value
  }

  /**
    The daily figure of a reading: its first entry plus its second if there
    is one. An empty reading is an error (the first entry is indexed unguarded).
   */
  function DailyValue(entries: seq<ReadingData>): (r: Result<real, Error>)
    ensures r.Failure? <==> entries == []
    ensures r.Failure? ==> r.error == EmptyReading
  {
    if |entries| == 0 then Failure(EmptyReading)
    else if |entries| > 1 then Success(entries[0].value + entries[1].value)
    else Success(entries[0].value)
  }

  /** The daily figure is the sum of at most the first two entries. */
  lemma {:induction false} DailyValueIsSumOfFirstTwo(entries: seq<ReadingData>)
    requires entries != []
    ensures |entries| == 1 ==> DailyValue(entries) == Success(Sum(entries))
    ensures |entries| >= 2 ==> DailyValue(entries) == Success(Sum(entries[..2]))
  {
    var first := entries[..1];
    assert first[..0] == [];
    assert Sum(first) == entries[0].value;
    if |entries| == 1 {
      assert first == entries;
    } else {
      var two := entries[..2];
      assert two[..|two| - 1] == first;
      assert Sum(two) == entries[0].value + entries[1].value;
    }
  }

  /** Entries after the second never contribute. */
  lemma DailyValueIgnoresLaterEntries(entries: seq<ReadingData>, later: seq<ReadingData>)
    requires |entries| >= 2
    ensures DailyValue(entries + later) == DailyValue(entries)
  {
    assert (entries + later)[0] == entries[0] && (entries + later)[1] == entries[1];
  }

  // ---------------------------------------------------------------------------
  // Rounding of displayed values

  function Pow10(n: nat): (p: nat)
    ensures p >= 1
  {
    if n == 0 then 1 else 10 * Pow10(n - 1)
  }

  /** The whole number nearest to `y`, ties going up. */
  function HalfUp(y: real): (k: int)
    ensures y - 0.5 < k as real <= y + 0.5
  {
    (y + 0.5).Floor
  }

  /** Rounding to a whole number of units `1 / scale`, moving `x` by at most half a unit. */
  function RoundBy(x: real, scale: real): (r: real)
    requires scale >= 1.0
    ensures x - 0.5 / scale < r <= x + 0.5 / scale
    ensures r * scale == HalfUp(x * scale) as real
  {
    var f := HalfUp(x * scale) as real;
    DivideMonotone(x * scale - 0.5, f, scale);
    DivideMonotone(f, x * scale + 0.5, scale);
    DivideThenMultiply(f, scale);
    f / scale
  }

  /** The number of units of the last kept decimal in one whole: 10 to the `places`. */
  function Scale(places: nat): (scale: real)
    ensures scale >= 1.0
  {
    Pow10(places) as real
  }

  /** `v` has at most `places` decimals: it is a whole number of units `1 / Scale(places)`. */
  predicate HasDecimals(v: real, places: nat)
  {
    (v * Scale(places)).Floor as real == v * Scale(places)
  }

  /**
    `round(x, places)`, with ties rounded up: the result has at most `places`
    decimals and lies within half a unit of the last kept decimal.
   */
  function Round(x: real, places: nat): (r: real)
    ensures x - 0.5 / Scale(places) < r <= x + 0.5 / Scale(places)
    ensures HasDecimals(r, places)
  {
    RoundByWhole(x, places);
    RoundBy(x, Scale(places))
  }

  /** A value rounded to units of `1 / Scale(places)` has at most `places` decimals. */
  lemma RoundByWhole(x: real, places: nat)
    ensures HasDecimals(RoundBy(x, Scale(places)), places)
  {
    WholeUnits(x, Scale(places));
  }

  lemma WholeUnits(x: real, scale: real)
    requires scale >= 1.0
    ensures (RoundBy(x, scale) * scale).Floor as real == RoundBy(x, scale) * scale
  {
    var k := HalfUp(x * scale);
    assert RoundBy(x, scale) * scale == k as real;
  }

  lemma RoundByExact(x: real, k: int, scale: real)
    requires scale >= 1.0 && x * scale == k as real
    ensures RoundBy(x, scale) == x
  {
    var y := x * scale;
    assert HalfUp(y) == k;
    assert y / scale == x;
  }

  lemma DivideThenMultiply(a: real, scale: real)
    requires scale != 0.0
    ensures a / scale * scale == a
  {
  }

  lemma DivideMonotone(a: real, b: real, scale: real)
    requires scale > 0.0 && a <= b
    ensures a / scale <= b / scale
    ensures a < b ==> a / scale < b / scale
  {
  }

  /** A value with at most `places` decimals (`k` units of the last one) is left as it is. */
  lemma RoundExact(x: real, k: int, places: nat)
    requires x * Scale(places) == k as real
    ensures Round(x, places) == x
  {
    RoundByExact(x, k, Scale(places));
  }

  /**
    Among the whole numbers of units, the rounded value is the one nearest to
    `x`, and of two equally near the upper one: any `k` units with
    `x - 1/2 unit < k <= x + 1/2 unit` is the result.
   */
  lemma RoundNearest(x: real, k: int, places: nat)
    requires x * Scale(places) - 0.5 < k as real <= x * Scale(places) + 0.5
    ensures Round(x, places) * Scale(places) == k as real
  {
    NearestUnits(x, k, Scale(places));
    assert Round(x, places) == RoundBy(x, Scale(places));
  }

  lemma NearestUnits(x: real, k: int, scale: real)
    requires scale >= 1.0 && x * scale - 0.5 < k as real <= x * scale + 0.5
    ensures RoundBy(x, scale) * scale == k as real
  {
    var h := HalfUp(x * scale);
    assert RoundBy(x, scale) * scale == h as real;
    assert h - 1 < k < h + 1;
  }

  /** Rounding twice to the same places is rounding once. */
  lemma RoundIdempotent(x: real, places: nat)
    ensures Round(Round(x, places), places) == Round(x, places)
  {
    RoundByIdempotent(x, Scale(places));
  }

  lemma RoundByIdempotent(x: real, scale: real)
    requires scale >= 1.0
    ensures RoundBy(RoundBy(x, scale), scale) == RoundBy(x, scale)
  {
    var k := HalfUp(x * scale);
    assert RoundBy(x, scale) * scale == k as real;
    RoundByExact(RoundBy(x, scale), k, scale);
  }

  /** Raw cost 1234 displays as 12.34; raw rate 1550 displays as 15.5. */
  lemma DisplayExamples()
    ensures Round(1234.0 / 100.0, 2) == 12.34
    ensures Round(1550.0 / 100.0, 4) == 15.5
  {
    assert Scale(2) == 100.0;
    RoundExact(12.34, 1234, 2);
    assert Scale(4) == 10000.0;
    RoundExact(15.5, 155000, 4);
  }

  /** Python truthiness of a float: every non-zero value, of either sign. */
  predicate Truthy(v: real): (t: bool)
    ensures t <==> v < 0.0 || 0.0 < v
  {
    v != 0.0
  }

  // ---------------------------------------------------------------------------
  // daily_data

  /** A daily figure and the start of the window it covers (the "last reset"). */
  datatype Daily = Daily(value: real, resetAt: DateTime)

  /**
    Request the daily-period reading of a resource over today's window and
    sum it. Fails when the request fails or when the reading has no entries.
   */
  function DailyData(api: Api, resourceId: string, now: DateTime): (r: Result<Daily, Error>)
    requires WellFormed(now)
    ensures var w := DailyWindow(now);
            var answer := api.reading(resourceId, w.from, w.to, P1D);
            && (answer.Failure? ==> r == Failure(answer.error))
            && (answer.Success? && answer.value.data == [] ==> r == Failure(EmptyReading))
            && (answer.Success? && answer.value.data != [] ==>
                  r.Success? && Success(r.value.value) == DailyValue(answer.value.data))
    ensures r.Success? ==> r.value.resetAt == DailyWindow(now).from && TimeOfDay(r.value.resetAt) == 0
  {
    var w := DailyWindow(now);
    match api.reading(resourceId, w.from, w.to, P1D)
    case Failure(e) => Failure(e)
    case Success(reading) =>
      match DailyValue(reading.data)
      case Failure(e) => Failure(e)
      case Success(v) => Success(Daily(v, w.from))
  }
}

=== FILE: sensors.dfy ===
/**
  The sensor entities and the tariff coordinator. Each keeps its last good
  value in memory and refreshes it only on ticks the update gate admits
  (or while it has never been initialised).
 */
module Sensors {
  import opened Wrappers
  import opened Clock
  import opened Models
  import opened Schedule

  /** What one refresh tick of a polled sensor did. */
  datatype Outcome =
    | Skipped            // initialised and the gate is closed: no request made
    | Raised(error: Error)  // the request or the summation raised; state untouched
    | Ignored            // the fetched figure was zero (falsy); state untouched
    | Stored(value: real)   // the fetched figure was kept

  /** How a fetched daily figure ends a tick that did fetch. */
  function FetchOutcome(fetched: Result<Daily, Error>): (o: Outcome)
    ensures o.Stored? <==> fetched.Success? && Truthy(fetched.value.value)
    ensures o.Stored? ==> o.value == fetched.value.value
    ensures o.Raised? <==> fetched.Failure?
    ensures fetched.Failure? ==> o == Raised(fetched.error)
    ensures o != Skipped
  {
    match fetched
    case Failure(e) => Raised(e)
    case Success(daily) => if Truthy(daily.value) then Stored(daily.value) else Ignored
  }

  /** The daily energy use of a consumption resource, in kWh. */
  class UsageSensor {
    const resource: Resource
    const virtualEntity: VirtualEntity
    const uniqueId: string
    var initialised: bool
    var nativeValue: Option<real>
    var lastReset: Option<DateTime>

    /** A value and its reset time are shown exactly once initialised; the reset is a midnight. */
    ghost predicate Valid()
      reads this
    {
      && uniqueId == resource.resourceId
      && (initialised <==> nativeValue.Some?)
      && (initialised <==> lastReset.Some?)
      && (lastReset.Some? ==> WellFormed(lastReset.value) && TimeOfDay(lastReset.value) == 0)
    }

    constructor (resource: Resource, virtualEntity: VirtualEntity)
      ensures Valid()
      ensures this.resource == resource && this.virtualEntity == virtualEntity
      ensures !initialised && nativeValue == None && lastReset == None
    {
      this.resource := resource;
      this.virtualEntity := virtualEntity;
      this.uniqueId := resource.resourceId;
      initialised := false;
      nativeValue := None;
      lastReset := None;
    }

    /**
      One refresh tick at time `now`: fetch when never initialised or when
      the gate is due; keep a non-zero figure rounded to two decimals with
      the window start as its reset time.
     */
    method Update(api: Api, now: DateTime) returns (outcome: Outcome)
      requires Valid() && WellFormed(now)
      modifies this
      ensures Valid()
      ensures outcome == Skipped <==> old(initialised) && !ShouldUpdate(now.minute)
      ensures outcome != Skipped ==> outcome == FetchOutcome(DailyData(api, resource.resourceId, now))
      ensures outcome.Stored? ==>
        && initialised
        && nativeValue == Some(Round(outcome.value, 2))
        && lastReset == Some(DailyWindow(now).from)
      ensures !outcome.Stored? ==>
        initialised == old(initialised) && nativeValue == old(nativeValue) && lastReset == old(lastReset)
    {
      if !initialised || ShouldUpdate(now.minute) {
        var fetched := DailyData(api, resource.resourceId, now);
        outcome := FetchOutcome(fetched);
        if outcome.Stored? {
          nativeValue := Some(Round(fetched.value.value, 2));
          lastReset := Some(fetched.value.resetAt);
          initialised := true;
        }
      } else {
        outcome := Skipped;
      }
    }
  }

  /** The daily cost of a cost resource, in pounds, grouped under its meter's device. */
  class CostSensor {
    const resource: Resource
    const virtualEntity: VirtualEntity
    const uniqueId: string
    const meterId: string
    var initialised: bool
    var nativeValue: Option<real>

    ghost predicate Valid()
      reads this
    {
      uniqueId == resource.resourceId && (initialised <==> nativeValue.Some?)
    }

    constructor (resource: Resource, virtualEntity: VirtualEntity, meterId: string)
      ensures Valid()
      ensures this.resource == resource && this.virtualEntity == virtualEntity && this.meterId == meterId
      ensures !initialised && nativeValue == None
    {
      this.resource := resource;
      this.virtualEntity := virtualEntity;
      this.uniqueId := resource.resourceId;
      this.meterId := meterId;
      initialised := false;
      nativeValue := None;
    }

    /**
      One refresh tick: the same gating as the usage sensor; a non-zero
      figure in pence is shown in pounds rounded to two decimals.
     */
    method Update(api: Api, now: DateTime) returns (outcome: Outcome)
      requires Valid() && WellFormed(now)
      modifies this
      ensures Valid()
      ensures outcome == Skipped <==> old(initialised) && !ShouldUpdate(now.minute)
      ensures outcome != Skipped ==> outcome == FetchOutcome(DailyData(api, resource.resourceId, now))
      ensures outcome.Stored? ==> initialised && nativeValue == Some(Round(outcome.value / 100.0, 2))
      ensures !outcome.Stored? ==> initialised == old(initialised) && nativeValue == old(nativeValue)
    {
      if !initialised || ShouldUpdate(now.minute) {
        var fetched := DailyData(api, resource.resourceId, now);
        outcome := FetchOutcome(fetched);
        if outcome.Stored? {
          nativeValue := Some(Round(fetched.value.value / 100.0, 2));
          initialised := true;
        }
      } else {
        outcome := Skipped;
      }
    }
  }

  const RateKey: string := "rate"
  const StandingChargeKey: string := "standing_charge"

  /** The mapping the coordinator hands its dependents after a fetch. */
  function TariffMap(rates: TariffRates): (m: map<string, real>)
    ensures m.Keys == {RateKey, StandingChargeKey}
    ensures m[RateKey] == rates.rate && m[StandingChargeKey] == rates.standingCharge
  {
    map[RateKey := rates.rate, StandingChargeKey := rates.standingCharge]
  }

  /** The shapes of mapping a coordinator ever publishes: empty, or both tariff figures. */
  ghost predicate TariffShaped(m: map<string, real>)
  {
    m == map[] || m.Keys == {RateKey, StandingChargeKey}
  }

  /**
    One tariff fetch shared by a Rate and a Standing sensor. `data` is what
    the platform's coordinator last published (empty before the first refresh).
   */
  class TariffCoordinator {
    const resource: Resource
    var rateInitialised: bool
    var standingInitialised: bool
    var data: map<string, real>

    /** Both flags move together, and the published data is always tariff-shaped. */
    ghost predicate Valid()
      reads this
    {
      rateInitialised == standingInitialised && TariffShaped(data)
    }

    constructor (resource: Resource)
      ensures Valid() && this.resource == resource
      ensures !rateInitialised && !standingInitialised && data == map[]
    {
      this.resource := resource;
      rateInitialised := false;
      standingInitialised := false;
      data := map[];
    }

    /**
      Fetch the tariff on the first successful call and afterwards only when
      the gate is due; otherwise answer an empty mapping.
     */
    method UpdateData(api: Api, now: DateTime) returns (r: Result<map<string, real>, Error>)
      requires Valid()
      modifies this`rateInitialised, this`standingInitialised
      ensures Valid()
      ensures var fetched := api.tariff(resource.resourceId);
        && (!old(rateInitialised) || ShouldUpdate(now.minute) ==>
              r == if fetched.Success? then Success(TariffMap(fetched.value)) else Failure(fetched.error))
        && (old(rateInitialised) && !ShouldUpdate(now.minute) ==> r == Success(map[]))
        && rateInitialised == (old(rateInitialised) || fetched.Success?)
      ensures r.Success? ==> TariffShaped(r.value)
    {
      if !standingInitialised || !rateInitialised {
        var fetched := api.tariff(resource.resourceId);
        if fetched.Failure? {
          return Failure(fetched.error);
        }
        rateInitialised := true;
        standingInitialised := true;
        return Success(TariffMap(fetched.value));
      }
      if ShouldUpdate(now.minute) {
        var fetched := api.tariff(resource.resourceId);
        if fetched.Failure? {
          return Failure(fetched.error);
        }
        return Success(TariffMap(fetched.value));
      }
      return Success(map[]);
    }

    /** The platform's refresh: publish the answer, or keep the old data when the update raised. */
    method Refresh(api: Api, now: DateTime) returns (r: Result<map<string, real>, Error>)
      requires Valid()
      modifies this
      ensures Valid()
      ensures var fetched := api.tariff(resource.resourceId);
        && (!old(rateInitialised) || ShouldUpdate(now.minute) ==>
              r == if fetched.Success? then Success(TariffMap(fetched.value)) else Failure(fetched.error))
        && (old(rateInitialised) && !ShouldUpdate(now.minute) ==> r == Success(map[]))
        && rateInitialised == (old(rateInitialised) || fetched.Success?)
      ensures data == if r.Success? then r.value else old(data)
    {
      r := UpdateData(api, now);
      if r.Success? {
        data := r.value;
      }
    }
  }

  /** The unit rate in pounds per kWh, from the coordinator. */
  class RateSensor {
    const coordinator: TariffCoordinator
    const resource: Resource
    const virtualEntity: VirtualEntity
    const uniqueId: string
    var nativeValue: Option<real>

    constructor (coordinator: TariffCoordinator, resource: Resource, virtualEntity: VirtualEntity)
      ensures this.coordinator == coordinator && this.resource == resource && this.virtualEntity == virtualEntity
      ensures uniqueId == resource.resourceId + "-rate" && nativeValue == None
    {
      this.coordinator := coordinator;
      this.resource := resource;
      this.virtualEntity := virtualEntity;
      this.uniqueId := resource.resourceId + "-rate";
      nativeValue := None;
    }

    /** Ignore an empty publication; otherwise show the rate in pounds to four decimals. */
    method HandleCoordinatorUpdate()
      requires coordinator.Valid()
      modifies this`nativeValue
      ensures coordinator.data == map[] ==> nativeValue == old(nativeValue)
      ensures coordinator.data != map[] ==> nativeValue == Some(Round(coordinator.data[RateKey] / 100.0, 4))
    {
      if coordinator.data != map[] {
        nativeValue := Some(Round(coordinator.data[RateKey] / 100.0, 4));
      }
    }
  }

  /** The daily standing charge in pounds, from the coordinator. */
  class StandingSensor {
    const coordinator: TariffCoordinator
    const resource: Resource
    const virtualEntity: VirtualEntity
    const uniqueId: string
    var nativeValue: Option<real>

    constructor (coordinator: TariffCoordinator, resource: Resource, virtualEntity: VirtualEntity)
      ensures this.coordinator == coordinator && this.resource == resource && this.virtualEntity == virtualEntity
      ensures uniqueId == resource.resourceId + "-tariff" && nativeValue == None
    {
      this.coordinator := coordinator;
      this.resource := resource;
      this.virtualEntity := virtualEntity;
      this.uniqueId := resource.resourceId + "-tariff";
      nativeValue := None;
    }

    /** Ignore an empty publication; otherwise show the standing charge in pounds to four decimals. */
    method HandleCoordinatorUpdate()
      requires coordinator.Valid()
      modifies this`nativeValue
      ensures coordinator.data == map[] ==> nativeValue == old(nativeValue)
      ensures coordinator.data != map[] ==>
        nativeValue == Some(Round(coordinator.data[StandingChargeKey] / 100.0, 4))
    {
      if coordinator.data != map[] {
        nativeValue := Some(Round(coordinator.data[StandingChargeKey] / 100.0, 4));
      }
    }
  }

  // ---------------------------------------------------------------------------
  // Scenarios over several ticks

  /**
    A tariff coordinator fetches on its first refresh whatever the minute, and
    a later refresh in a closed minute publishes nothing, so the rate and
    standing charge sensors keep showing the first figures.
   */
  method TariffKeptOutsideGate(api: Api, resource: Resource, virtualEntity: VirtualEntity, first: DateTime, later: DateTime)
    returns (firstAnswer: Result<map<string, real>, Error>, laterAnswer: Result<map<string, real>, Error>,
             rateShown: Option<real>, standingShown: Option<real>)
    requires api.tariff(resource.resourceId).Success?
    requires !ShouldUpdate(later.minute)
    ensures firstAnswer == Success(TariffMap(api.tariff(resource.resourceId).value))
    ensures laterAnswer == Success(map[])
    ensures rateShown == Some(Round(api.tariff(resource.resourceId).value.rate / 100.0, 4))
    ensures standingShown == Some(Round(api.tariff(resource.resourceId).value.standingCharge / 100.0, 4))
  {
    var coordinator := new TariffCoordinator(resource);
    var rate := new RateSensor(coordinator, resource, virtualEntity);
    var standing := new StandingSensor(coordinator, resource, virtualEntity);
    firstAnswer := coordinator.Refresh(api, first);
    rate.HandleCoordinatorUpdate();
    standing.HandleCoordinatorUpdate();
    laterAnswer := coordinator.Refresh(api, later);
    rate.HandleCoordinatorUpdate();
    standing.HandleCoordinatorUpdate();
    rateShown, standingShown := rate.nativeValue, standing.nativeValue;
  }

  /**
    A usage sensor that has shown a figure keeps showing it when a later due
    tick fetches a zero: a genuine zero-use day is never displayed.
   */
  method UsageKeptOnZero(api: Api, resource: Resource, virtualEntity: VirtualEntity, first: DateTime, later: DateTime)
    returns (shown: Option<real>, resetAt: Option<DateTime>)
    requires WellFormed(first) && WellFormed(later)
    requires DailyData(api, resource.resourceId, first).Success?
    requires Truthy(DailyData(api, resource.resourceId, first).value.value)
    requires DailyData(api, resource.resourceId, later) == Success(Daily(0.0, DailyWindow(later).from))
    ensures shown == Some(Round(DailyData(api, resource.resourceId, first).value.value, 2))
    ensures resetAt == Some(DailyWindow(first).from)
  {
    var usage := new UsageSensor(resource, virtualEntity);
    var outcome := usage.Update(api, first);
    outcome := usage.Update(api, later);
    shown, resetAt := usage.nativeValue, usage.lastReset;
  }
}

=== FILE: setup.dfy ===
/**
  Platform setup: for every virtual entity, one usage, standing-charge and
  rate sensor per consumption resource (recording it as the meter of its
  classifier), then one cost sensor per cost resource, grouped under the
  meter recorded for its supply.
 */
module Setup {
  import opened Wrappers
  import opened Clock
  import opened Models
  import opened Schedule
  import opened Classify
  import opened Sensors

  // ---------------------------------------------------------------------------
  // The plan: what setup creates, as values

  datatype Kind = UsageKind | StandingKind | RateKind | CostKind

  /**
    What identifies a created sensor: its kind, unique id, resource, virtual
    entity, and the resource id its device is keyed on (the meter's, for cost).
   */
  datatype EntitySpec = EntitySpec(
    kind: Kind,
    uniqueId: string,
    resource: Resource,
    virtualEntity: VirtualEntity,
    deviceId: string)

  predicate IsConsumption(classifier: string): (c: bool)
    ensures c ==> SupplyType(classifier).Success?
  {
    classifier == ElectricityConsumption || classifier == GasConsumption
  }

  /** The meters-dict key a cost classifier is looked up under, if it is one. */
  function CostMeterKey(classifier: string): (key: Option<string>)
    ensures key.Some? <==> classifier == GasCost || classifier == ElectricityCost
    ensures key.Some? ==> IsConsumption(key.value) && classifier == key.value + ".cost"
  {
    if classifier == GasCost then Some(GasConsumption)
    else if classifier == ElectricityCost then Some(ElectricityConsumption)
    else None
  }

  function ConsumptionSpecs(virtualEntity: VirtualEntity, resource: Resource): seq<EntitySpec>
  {
    [EntitySpec(UsageKind, resource.resourceId, resource, virtualEntity, resource.resourceId),
     EntitySpec(StandingKind, resource.resourceId + "-tariff", resource, virtualEntity, resource.resourceId),
     EntitySpec(RateKind, resource.resourceId + "-rate", resource, virtualEntity, resource.resourceId)]
  }

  function CostSpec(virtualEntity: VirtualEntity, resource: Resource, meterId: string): EntitySpec
  {
    EntitySpec(CostKind, resource.resourceId, resource, virtualEntity, meterId)
  }

  /** How many of `resources` have a consumption classifier. */
  function ConsumptionCount(resources: seq<Resource>): nat
  {
    if resources == [] then 0
    else (if IsConsumption(resources[0].classifier) then 1 else 0) + ConsumptionCount(resources[1..])
  }

  /** How many of `resources` have a cost classifier. */
  function CostCount(resources: seq<Resource>): nat
  {
    if resources == [] then 0
    else (if CostMeterKey(resources[0].classifier).Some? then 1 else 0) + CostCount(resources[1..])
  }

  /** First pass over a virtual entity's resources: specs appended to `acc`, meters recorded. */
  function ConsumptionPass(virtualEntity: VirtualEntity, resources: seq<Resource>,
                           acc: seq<EntitySpec>, meters: map<string, string>): (r: (seq<EntitySpec>, map<string, string>))
    ensures |r.0| == |acc| + 3 * ConsumptionCount(resources)
    decreases |resources|
  {
    if resources == [] then (acc, meters)
    else if IsConsumption(resources[0].classifier) then
      ConsumptionPass(virtualEntity, resources[1..], acc + ConsumptionSpecs(virtualEntity, resources[0]),
                      meters[resources[0].classifier := resources[0].resourceId])
    else ConsumptionPass(virtualEntity, resources[1..], acc, meters)
  }

  /** Second pass: a cost spec per cost resource, failing on the first missing meter. */
  function CostPass(virtualEntity: VirtualEntity, resources: seq<Resource>,
                    meters: map<string, string>, acc: seq<EntitySpec>): (r: Result<seq<EntitySpec>, Error>)
    ensures r.Success? ==> |r.value| == |acc| + CostCount(resources)
    ensures r.Failure? ==> r.error.MissingMeter?
    decreases |resources|
  {
    if resources == [] then Success(acc)
    else match CostMeterKey(resources[0].classifier)
      case None => CostPass(virtualEntity, resources[1..], meters, acc)
      case Some(key) =>
        if key in meters then
          CostPass(virtualEntity, resources[1..], meters, acc + [CostSpec(virtualEntity, resources[0], meters[key])])
        else Failure(MissingMeter(key))
  }

  /** Both passes over one virtual entity; the meters carry over to the next one. */
  function VirtualEntityBlock(virtualEntity: VirtualEntity, resources: seq<Resource>,
                              meters: map<string, string>): (r: Result<(seq<EntitySpec>, map<string, string>), Error>)
    ensures r.Success? ==> |r.value.0| == 3 * ConsumptionCount(resources) + CostCount(resources)
    ensures r.Failure? ==> r.error.MissingMeter?
  {
    var (consumption, meters') := ConsumptionPass(virtualEntity, resources, [], meters);
    match CostPass(virtualEntity, resources, meters', [])
    case Failure(e) => Failure(e)
    case Success(costs) => Success((consumption + costs, meters'))
  }

  /** Listing the resources of one of `virtualEntities` raised `error`. */
  ghost predicate ListingFailed(api: Api, virtualEntities: seq<VirtualEntity>, error: Error)
  {
    exists i :: 0 <= i < |virtualEntities| && api.resources(virtualEntities[i].id) == Failure(error)
  }

  function EntityPlan(api: Api, virtualEntities: seq<VirtualEntity>,
                      meters: map<string, string>, acc: seq<EntitySpec>): (r: Result<seq<EntitySpec>, Error>)
    ensures r.Failure? ==> r.error.MissingMeter? || ListingFailed(api, virtualEntities, r.error)
    decreases |virtualEntities|
  {
    if virtualEntities == [] then Success(acc)
    else match api.resources(virtualEntities[0].id)
      case Failure(e) => Failure(e)
      case Success(resources) =>
        match VirtualEntityBlock(virtualEntities[0], resources, meters)
        case Failure(e) => Failure(e)
        case Success(block) => EntityPlan(api, virtualEntities[1..], block.1, acc + block.0)
  }

  /**
    The entities setup registers, or the exception it raises: a refused
    login, a failed listing, or a cost resource whose meter is missing.
   */
  function SetupPlan(api: Api): (r: Result<seq<EntitySpec>, Error>)
    ensures r.Success? ==> api.authenticates && api.virtualEntities.Success?
    ensures r.Failure? ==>
      || r.error == AuthenticationFailed
      || api.virtualEntities == Failure(r.error)
      || r.error.MissingMeter?
      || (api.virtualEntities.Success? && ListingFailed(api, api.virtualEntities.value, r.error))
  {
    if !api.authenticates then Failure(AuthenticationFailed)
    else match api.virtualEntities
      case Failure(e) => Failure(e)
      case Success(virtualEntities) => EntityPlan(api, virtualEntities, map[], [])
  }

  // ---------------------------------------------------------------------------
  // Properties of the plan

  /** `spec` is the usage sensor of a resource of classifier `key`. */
  predicate IsUsageOf(spec: EntitySpec, key: string)
  {
    spec.kind == UsageKind && spec.resource.classifier == key
  }

  /**
    Among the specs before position `bound`, the last usage sensor of
    classifier `key` has unique id `meterId`: what `meters[key]` holds when
    setup has planned that far.
   */
  ghost predicate LatestUsage(acc: seq<EntitySpec>, bound: int, key: string, meterId: string)
  {
    && bound <= |acc|
    && exists j :: 0 <= j < bound && IsUsageOf(acc[j], key) && acc[j].uniqueId == meterId
                   && forall l :: j < l < bound ==> !IsUsageOf(acc[l], key)
  }

  lemma LatestUsagePrefix(acc: seq<EntitySpec>, extra: seq<EntitySpec>, bound: int, key: string, meterId: string)
    requires LatestUsage(acc, bound, key, meterId)
    ensures LatestUsage(acc + extra, bound, key, meterId)
  {
    var j :| 0 <= j < bound && IsUsageOf(acc[j], key) && acc[j].uniqueId == meterId
             && forall l :: j < l < bound ==> !IsUsageOf(acc[l], key);
    var acc' := acc + extra;
    assert forall l :: 0 <= l < bound ==> acc'[l] == acc[l];
    assert IsUsageOf(acc'[j], key) && acc'[j].uniqueId == meterId;
  }

  /** Appending no usage sensor of `key` keeps the latest one. */
  lemma LatestUsagePast(acc: seq<EntitySpec>, extra: seq<EntitySpec>, key: string, meterId: string)
    requires LatestUsage(acc, |acc|, key, meterId)
    requires forall q :: 0 <= q < |extra| ==> !IsUsageOf(extra[q], key)
    ensures LatestUsage(acc + extra, |acc + extra|, key, meterId)
  {
    var j :| 0 <= j < |acc| && IsUsageOf(acc[j], key) && acc[j].uniqueId == meterId
             && forall l :: j < l < |acc| ==> !IsUsageOf(acc[l], key);
    var acc' := acc + extra;
    forall l | j < l < |acc'|
      ensures !IsUsageOf(acc'[l], key)
    {
      if l < |acc| {
        assert acc'[l] == acc[l];
      } else {
        assert acc'[l] == extra[l - |acc|];
      }
    }
    assert acc'[j] == acc[j];
  }

  /** Every recorded meter is the unique id of the latest usage sensor of its classifier. */
  ghost predicate MetersPlanned(meters: map<string, string>, acc: seq<EntitySpec>)
  {
    forall key :: key in meters ==> LatestUsage(acc, |acc|, key, meters[key])
  }

  /**
    Every cost sensor is keyed on the latest usage sensor of its meter's
    classifier planned before it.
   */
  ghost predicate CostsFollowMeters(acc: seq<EntitySpec>)
  {
    forall k :: 0 <= k < |acc| && acc[k].kind == CostKind ==>
      && CostMeterKey(acc[k].resource.classifier).Some?
      && LatestUsage(acc, k, CostMeterKey(acc[k].resource.classifier).value, acc[k].deviceId)
  }

  /**
    Positions `s`, `s + 1` and `s + 2` hold the usage, standing-charge and
    rate specs of one resource, whose classifier is a consumption classifier.
   */
  ghost predicate TripleFrom(acc: seq<EntitySpec>, s: int)
  {
    && 0 <= s && s + 3 <= |acc|
    && IsConsumption(acc[s].resource.classifier)
    && var triple := ConsumptionSpecs(acc[s].virtualEntity, acc[s].resource);
       acc[s] == triple[0] && acc[s + 1] == triple[1] && acc[s + 2] == triple[2]
  }

  /** The spec at position `k` lies in the usage, standing charge, rate triple of its resource. */
  ghost predicate TripleAt(acc: seq<EntitySpec>, k: int)
    requires 0 <= k < |acc|
  {
    && (acc[k].kind == UsageKind ==> TripleFrom(acc, k))
    && (acc[k].kind == StandingKind ==> TripleFrom(acc, k - 1))
    && (acc[k].kind == RateKind ==> TripleFrom(acc, k - 2))
  }

  /** Usage, standing charge and rate come as one triple per consumption resource. */
  ghost predicate Triples(acc: seq<EntitySpec>)
  {
    forall k :: 0 <= k < |acc| ==> TripleAt(acc, k)
  }

  lemma TripleFromExtends(acc: seq<EntitySpec>, extra: seq<EntitySpec>, s: int)
    requires TripleFrom(acc, s)
    ensures TripleFrom(acc + extra, s)
  {
    var acc' := acc + extra;
    assert acc'[s] == acc[s] && acc'[s + 1] == acc[s + 1] && acc'[s + 2] == acc[s + 2];
  }

  /** A complete triple stays complete when more specs are appended. */
  lemma TripleAtExtends(acc: seq<EntitySpec>, extra: seq<EntitySpec>, k: int)
    requires 0 <= k < |acc| && TripleAt(acc, k)
    ensures TripleAt(acc + extra, k)
  {
    assert (acc + extra)[k] == acc[k];
    match acc[k].kind
    case UsageKind => TripleFromExtends(acc, extra, k);
    case StandingKind => TripleFromExtends(acc, extra, k - 1);
    case RateKind => TripleFromExtends(acc, extra, k - 2);
    case CostKind =>
  }

  /** Every planned sensor's resource has a supply, so its device can be named. */
  ghost predicate Classified(acc: seq<EntitySpec>)
  {
    forall k :: 0 <= k < |acc| ==> SupplyType(acc[k].resource.classifier).Success?
  }

  ghost predicate PlanInvariant(acc: seq<EntitySpec>, meters: map<string, string>)
  {
    MetersPlanned(meters, acc) && CostsFollowMeters(acc) && Triples(acc) && Classified(acc)
  }

  lemma ConsumptionStepMeters(acc: seq<EntitySpec>, meters: map<string, string>,
                              virtualEntity: VirtualEntity, resource: Resource)
    requires MetersPlanned(meters, acc)
    ensures MetersPlanned(meters[resource.classifier := resource.resourceId],
                          acc + ConsumptionSpecs(virtualEntity, resource))
  {
    var triple := ConsumptionSpecs(virtualEntity, resource);
    var acc' := acc + triple;
    var meters' := meters[resource.classifier := resource.resourceId];
    var n := |acc|;
    forall key | key in meters'
      ensures LatestUsage(acc', |acc'|, key, meters'[key])
    {
      if key == resource.classifier {
        assert acc'[n] == triple[0] && acc'[n + 1] == triple[1] && acc'[n + 2] == triple[2];
        assert forall l :: n < l < |acc'| ==> !IsUsageOf(acc'[l], key);
        assert IsUsageOf(acc'[n], key);
      } else {
        LatestUsagePast(acc, triple, key, meters[key]);
      }
    }
  }

  lemma ConsumptionStepCosts(acc: seq<EntitySpec>, virtualEntity: VirtualEntity, resource: Resource)
    requires CostsFollowMeters(acc)
    ensures CostsFollowMeters(acc + ConsumptionSpecs(virtualEntity, resource))
  {
    var triple := ConsumptionSpecs(virtualEntity, resource);
    var acc' := acc + triple;
    forall k | 0 <= k < |acc'| && acc'[k].kind == CostKind
      ensures CostMeterKey(acc'[k].resource.classifier).Some?
      ensures LatestUsage(acc', k, CostMeterKey(acc'[k].resource.classifier).value, acc'[k].deviceId)
    {
      assert k < |acc| && acc'[k] == acc[k];
      LatestUsagePrefix(acc, triple, k, CostMeterKey(acc[k].resource.classifier).value, acc[k].deviceId);
    }
  }

  /** The three specs of a consumption resource form a complete triple at the end of the plan. */
  lemma TripleAtAppended(acc: seq<EntitySpec>, virtualEntity: VirtualEntity, resource: Resource, i: int)
    requires 0 <= i < 3 && IsConsumption(resource.classifier)
    ensures TripleAt(acc + ConsumptionSpecs(virtualEntity, resource), |acc| + i)
  {
    var triple := ConsumptionSpecs(virtualEntity, resource);
    var acc' := acc + triple;
    var n := |acc|;
    assert acc'[n] == triple[0] && acc'[n + 1] == triple[1] && acc'[n + 2] == triple[2];
    assert TripleFrom(acc', n);
  }

  lemma ConsumptionStepTriples(acc: seq<EntitySpec>, virtualEntity: VirtualEntity, resource: Resource)
    requires Triples(acc) && IsConsumption(resource.classifier)
    ensures Triples(acc + ConsumptionSpecs(virtualEntity, resource))
  {
    var acc' := acc + ConsumptionSpecs(virtualEntity, resource);
    forall k | 0 <= k < |acc'|
      ensures TripleAt(acc', k)
    {
      if k < |acc| {
        TripleAtExtends(acc, ConsumptionSpecs(virtualEntity, resource), k);
      } else {
        TripleAtAppended(acc, virtualEntity, resource, k - |acc|);
      }
    }
  }

  lemma ConsumptionStep(acc: seq<EntitySpec>, meters: map<string, string>,
                        virtualEntity: VirtualEntity, resource: Resource)
    requires PlanInvariant(acc, meters) && IsConsumption(resource.classifier)
    ensures PlanInvariant(acc + ConsumptionSpecs(virtualEntity, resource),
                          meters[resource.classifier := resource.resourceId])
  {
    ConsumptionStepMeters(acc, meters, virtualEntity, resource);
    ConsumptionStepCosts(acc, virtualEntity, resource);
    ConsumptionStepTriples(acc, virtualEntity, resource);
    SupplyTypeExamples();
    var acc' := acc + ConsumptionSpecs(virtualEntity, resource);
    assert forall k :: 0 <= k < |acc| ==> acc'[k] == acc[k];
  }

  /** The sequence `acc` extended by one spec agrees with `acc` on its old positions. */
  lemma ExtendsPrefix(acc: seq<EntitySpec>, spec: EntitySpec)
    ensures forall k :: 0 <= k < |acc| ==> (acc + [spec])[k] == acc[k]
  {
  }

  lemma CostStepTriples(acc: seq<EntitySpec>, spec: EntitySpec)
    requires Triples(acc) && spec.kind == CostKind
    ensures Triples(acc + [spec])
  {
    var acc' := acc + [spec];
    forall k | 0 <= k < |acc'|
      ensures TripleAt(acc', k)
    {
      if k < |acc| {
        TripleAtExtends(acc, [spec], k);
      } else {
        assert acc'[k] == spec;
      }
    }
  }

  lemma CostStepMeters(acc: seq<EntitySpec>, meters: map<string, string>,
                       virtualEntity: VirtualEntity, resource: Resource, key: string)
    requires MetersPlanned(meters, acc) && CostsFollowMeters(acc)
    requires CostMeterKey(resource.classifier) == Some(key) && key in meters
    ensures MetersPlanned(meters, acc + [CostSpec(virtualEntity, resource, meters[key])])
    ensures CostsFollowMeters(acc + [CostSpec(virtualEntity, resource, meters[key])])
  {
    var spec := CostSpec(virtualEntity, resource, meters[key]);
    var acc' := acc + [spec];
    var n := |acc|;
    ExtendsPrefix(acc, spec);
    forall m | m in meters
      ensures LatestUsage(acc', |acc'|, m, meters[m])
    {
      LatestUsagePast(acc, [spec], m, meters[m]);
    }
    forall k | 0 <= k < |acc'| && acc'[k].kind == CostKind
      ensures LatestUsage(acc', k, CostMeterKey(acc'[k].resource.classifier).value, acc'[k].deviceId)
    {
      if k < n {
        LatestUsagePrefix(acc, [spec], k, CostMeterKey(acc[k].resource.classifier).value, acc[k].deviceId);
      } else {
        LatestUsagePrefix(acc, [spec], n, key, meters[key]);
      }
    }
  }

  lemma CostStep(acc: seq<EntitySpec>, meters: map<string, string>,
                 virtualEntity: VirtualEntity, resource: Resource, key: string)
    requires PlanInvariant(acc, meters)
    requires CostMeterKey(resource.classifier) == Some(key) && key in meters
    ensures PlanInvariant(acc + [CostSpec(virtualEntity, resource, meters[key])], meters)
  {
    var spec := CostSpec(virtualEntity, resource, meters[key]);
    CostStepMeters(acc, meters, virtualEntity, resource, key);
    CostStepTriples(acc, spec);
    CostClassifierHasMeterSupply(key);
    CostStepClassified(acc, spec);
  }

  lemma CostStepClassified(acc: seq<EntitySpec>, spec: EntitySpec)
    requires Classified(acc) && SupplyType(spec.resource.classifier).Success?
    ensures Classified(acc + [spec])
  {
    ExtendsPrefix(acc, spec);
  }

  lemma {:induction false} ConsumptionPassKeepsInvariant(virtualEntity: VirtualEntity, resources: seq<Resource>,
                                                         acc: seq<EntitySpec>, meters: map<string, string>)
    requires PlanInvariant(acc, meters)
    ensures PlanInvariant(ConsumptionPass(virtualEntity, resources, acc, meters).0,
                          ConsumptionPass(virtualEntity, resources, acc, meters).1)
    decreases |resources|
  {
    if resources != [] {
      var r := resources[0];
      if IsConsumption(r.classifier) {
        ConsumptionStep(acc, meters, virtualEntity, r);
        ConsumptionPassKeepsInvariant(virtualEntity, resources[1..], acc + ConsumptionSpecs(virtualEntity, r),
                                      meters[r.classifier := r.resourceId]);
      } else {
        ConsumptionPassKeepsInvariant(virtualEntity, resources[1..], acc, meters);
      }
    }
  }

  lemma {:induction false} CostPassKeepsInvariant(virtualEntity: VirtualEntity, resources: seq<Resource>,
                                                  meters: map<string, string>, acc: seq<EntitySpec>)
    requires PlanInvariant(acc, meters)
    ensures CostPass(virtualEntity, resources, meters, acc).Success? ==>
      PlanInvariant(CostPass(virtualEntity, resources, meters, acc).value, meters)
    decreases |resources|
  {
    if resources != [] {
      var r := resources[0];
      match CostMeterKey(r.classifier)
      case None =>
        CostPassKeepsInvariant(virtualEntity, resources[1..], meters, acc);
      case Some(key) =>
        if key in meters {
          CostStep(acc, meters, virtualEntity, r, key);
          CostPassKeepsInvariant(virtualEntity, resources[1..], meters, acc + [CostSpec(virtualEntity, r, meters[key])]);
        }
    }
  }

  /** Appending to the accumulator of a pass only prefixes its result. */
  lemma {:induction false} ConsumptionPassAppends(virtualEntity: VirtualEntity, resources: seq<Resource>,
                                                  acc: seq<EntitySpec>, meters: map<string, string>)
    ensures ConsumptionPass(virtualEntity, resources, acc, meters)
         == (acc + ConsumptionPass(virtualEntity, resources, [], meters).0,
             ConsumptionPass(virtualEntity, resources, [], meters).1)
    decreases |resources|
  {
    if resources != [] {
      var r := resources[0];
      if IsConsumption(r.classifier) {
        var m' := meters[r.classifier := r.resourceId];
        var triple := ConsumptionSpecs(virtualEntity, r);
        var rest := ConsumptionPass(virtualEntity, resources[1..], [], m');
        ConsumptionPassAppends(virtualEntity, resources[1..], acc + triple, m');
        ConsumptionPassAppends(virtualEntity, resources[1..], triple, m');
        assert [] + triple == triple;
        assert ConsumptionPass(virtualEntity, resources, [], meters) == (triple + rest.0, rest.1);
        assert acc + triple + rest.0 == acc + (triple + rest.0);
      } else {
        ConsumptionPassAppends(virtualEntity, resources[1..], acc, meters);
      }
    } else {
      assert acc + [] == acc;
    }
  }

  lemma {:induction false} CostPassAppends(virtualEntity: VirtualEntity, resources: seq<Resource>,
                                           meters: map<string, string>, acc: seq<EntitySpec>)
    ensures CostPass(virtualEntity, resources, meters, acc).Success?
        <==> CostPass(virtualEntity, resources, meters, []).Success?
    ensures CostPass(virtualEntity, resources, meters, acc).Success? ==>
      CostPass(virtualEntity, resources, meters, acc).value == acc + CostPass(virtualEntity, resources, meters, []).value
    ensures CostPass(virtualEntity, resources, meters, acc).Failure? ==>
      CostPass(virtualEntity, resources, meters, acc).error == CostPass(virtualEntity, resources, meters, []).error
    decreases |resources|
  {
    if resources != [] {
      var r := resources[0];
      match CostMeterKey(r.classifier)
      case None =>
        CostPassAppends(virtualEntity, resources[1..], meters, acc);
        CostPassAppends(virtualEntity, resources[1..], meters, []);
      case Some(key) =>
        if key in meters {
          var spec := CostSpec(virtualEntity, r, meters[key]);
          CostPassAppends(virtualEntity, resources[1..], meters, acc + [spec]);
          CostPassAppends(virtualEntity, resources[1..], meters, [spec]);
          assert [] + [spec] == [spec];
        }
    }
  }

  lemma {:induction false} EntityPlanKeepsInvariant(api: Api, virtualEntities: seq<VirtualEntity>,
                                                    meters: map<string, string>, acc: seq<EntitySpec>)
    requires PlanInvariant(acc, meters)
    ensures EntityPlan(api, virtualEntities, meters, acc).Success? ==>
      exists meters' :: PlanInvariant(EntityPlan(api, virtualEntities, meters, acc).value, meters')
    decreases |virtualEntities|
  {
    if virtualEntities == [] {
      assert PlanInvariant(EntityPlan(api, virtualEntities, meters, acc).value, meters);
    } else {
      var ve := virtualEntities[0];
      match api.resources(ve.id)
      case Failure(_) =>
      case Success(resources) =>
        var pass := ConsumptionPass(ve, resources, acc, meters);
        ConsumptionPassKeepsInvariant(ve, resources, acc, meters);
        CostPassKeepsInvariant(ve, resources, pass.1, pass.0);
        BlockAppends(ve, resources, meters, acc);
        var block := VirtualEntityBlock(ve, resources, meters);
        if block.Success? {
          EntityPlanKeepsInvariant(api, virtualEntities[1..], block.value.1, acc + block.value.0);
        }
    }
  }

  lemma PlanInvariantAtStart()
    ensures PlanInvariant([], map[])
  {
  }

  /**
    What every successful setup registers: usage, standing-charge and rate
    sensors in triples per consumption resource with unique ids id, id-tariff
    and id-rate; each cost sensor keyed on the unique id of the latest usage
    sensor of its meter's classifier created before it; and only resources
    whose supply is known, so that every device name can be formed.
   */
  lemma SetupPlanShape(api: Api)
    requires SetupPlan(api).Success?
    ensures Triples(SetupPlan(api).value)
    ensures CostsFollowMeters(SetupPlan(api).value)
    ensures forall k :: 0 <= k < |SetupPlan(api).value| ==>
      DeviceName(SetupPlan(api).value[k].resource, SetupPlan(api).value[k].virtualEntity).Success?
  {
    PlanInvariantAtStart();
    EntityPlanKeepsInvariant(api, api.virtualEntities.value, map[], []);
  }

  /** Within one virtual entity, cost sensors come after all of its consumption sensors. */
  lemma {:induction false} BlockCostsLast(virtualEntity: VirtualEntity, resources: seq<Resource>,
                                          meters: map<string, string>)
    requires VirtualEntityBlock(virtualEntity, resources, meters).Success?
    ensures var block := VirtualEntityBlock(virtualEntity, resources, meters).value.0;
      forall k, l :: 0 <= k < l < |block| && block[k].kind == CostKind ==> block[l].kind == CostKind
  {
    var pass := ConsumptionPass(virtualEntity, resources, [], meters);
    var consumption := pass.0;
    var costs := CostPass(virtualEntity, resources, pass.1, []).value;
    ConsumptionKinds(virtualEntity, resources, [], meters);
    CostKinds(virtualEntity, resources, pass.1, []);
    var block := consumption + costs;
    assert block == VirtualEntityBlock(virtualEntity, resources, meters).value.0;
    forall k, l | 0 <= k < l < |block| && block[k].kind == CostKind
      ensures block[l].kind == CostKind
    {
      assert k >= |consumption|;
    }
  }

  lemma {:induction false} ConsumptionKinds(virtualEntity: VirtualEntity, resources: seq<Resource>,
                                            acc: seq<EntitySpec>, meters: map<string, string>)
    requires forall k :: 0 <= k < |acc| ==> acc[k].kind != CostKind
    ensures forall k :: 0 <= k < |ConsumptionPass(virtualEntity, resources, acc, meters).0| ==>
      ConsumptionPass(virtualEntity, resources, acc, meters).0[k].kind != CostKind
    decreases |resources|
  {
    if resources != [] {
      var r := resources[0];
      if IsConsumption(r.classifier) {
        var acc' := acc + ConsumptionSpecs(virtualEntity, r);
        assert forall k :: 0 <= k < |acc'| ==> acc'[k].kind != CostKind by {
          forall k | 0 <= k < |acc'| ensures acc'[k].kind != CostKind {
            if k >= |acc| { assert acc'[k] == ConsumptionSpecs(virtualEntity, r)[k - |acc|]; }
          }
        }
        ConsumptionKinds(virtualEntity, resources[1..], acc', meters[r.classifier := r.resourceId]);
      } else {
        ConsumptionKinds(virtualEntity, resources[1..], acc, meters);
      }
    }
  }

  lemma {:induction false} CostKinds(virtualEntity: VirtualEntity, resources: seq<Resource>,
                                     meters: map<string, string>, acc: seq<EntitySpec>)
    requires forall k :: 0 <= k < |acc| ==> acc[k].kind == CostKind
    ensures CostPass(virtualEntity, resources, meters, acc).Success? ==>
      forall k :: 0 <= k < |CostPass(virtualEntity, resources, meters, acc).value| ==>
        CostPass(virtualEntity, resources, meters, acc).value[k].kind == CostKind
    decreases |resources|
  {
    if resources != [] {
      var r := resources[0];
      match CostMeterKey(r.classifier)
      case None =>
        CostKinds(virtualEntity, resources[1..], meters, acc);
      case Some(key) =>
        if key in meters {
          var acc' := acc + [CostSpec(virtualEntity, r, meters[key])];
          assert forall k :: 0 <= k < |acc'| ==> acc'[k].kind == CostKind by {
            forall k | 0 <= k < |acc'| ensures acc'[k].kind == CostKind {
              if k < |acc| { assert acc'[k] == acc[k]; }
            }
          }
          CostKinds(virtualEntity, resources[1..], meters, acc');
        }
    }
  }

  /**
    The meters dict outlives each virtual entity: a cost resource of a later
    virtual entity is keyed on the meter an earlier one recorded.
   */
  lemma MetersSharedAcrossVirtualEntities(first: VirtualEntity, second: VirtualEntity, meter: Resource, cost: Resource)
    requires first.id != second.id
    requires meter.classifier == GasConsumption && cost.classifier == GasCost
    ensures var api := Api(true, Success([first, second]),
                           id => if id == first.id then Success([meter]) else Success([cost]),
                           (id, from, to, period) => Failure(RequestFailed),
                           id => Failure(RequestFailed));
      SetupPlan(api) == Success(ConsumptionSpecs(first, meter) + [CostSpec(second, cost, meter.resourceId)])
  {
    var api := Api(true, Success([first, second]),
                   id => if id == first.id then Success([meter]) else Success([cost]),
                   (id, from, to, period) => Failure(RequestFailed),
                   id => Failure(RequestFailed));
    var meters := map[GasConsumption := meter.resourceId];
    var triple := ConsumptionSpecs(first, meter);
    var costSpec := CostSpec(second, cost, meter.resourceId);
    assert ConsumptionPass(first, [meter], [], map[]) == (triple, meters) by {
      assert [meter][1..] == [];
      assert [] + triple == triple;
    }
    assert CostPass(first, [meter], meters, []) == Success([]) by {
      assert [meter][1..] == [];
    }
    assert triple + [] == triple;
    assert VirtualEntityBlock(first, [meter], map[]) == Success((triple, meters));
    assert ConsumptionPass(second, [cost], [], meters) == ([], meters) by {
      assert [cost][1..] == [];
    }
    assert CostPass(second, [cost], meters, []) == Success([costSpec]) by {
      assert [cost][1..] == [];
      assert [] + [costSpec] == [costSpec];
    }
    assert VirtualEntityBlock(second, [cost], meters) == Success(([costSpec], meters)) by {
      assert [] + [costSpec] == [costSpec];
    }
    var ves := [first, second];
    assert ves[1..] == [second] && ves[1..][1..] == [];
    assert [] + triple == triple;
    assert EntityPlan(api, [second], meters, triple) == Success(triple + [costSpec]);
  }

  /** A cost resource whose supply has no meter recorded yet makes setup raise. */
  lemma MissingMeterFailsSetup(virtualEntity: VirtualEntity, cost: Resource)
    requires cost.classifier == ElectricityCost
    ensures var api := Api(true, Success([virtualEntity]),
                           id => Success([cost]),
                           (id, from, to, period) => Failure(RequestFailed),
                           id => Failure(RequestFailed));
      SetupPlan(api) == Failure(MissingMeter(ElectricityConsumption))
  {
    assert [cost][1..] == [];
    assert ConsumptionPass(virtualEntity, [cost], [], map[]) == ([], map[]);
    assert CostPass(virtualEntity, [cost], map[], []) == Failure(MissingMeter(ElectricityConsumption));
  }

  /** The cost resource at `j` is looked up under a meters-dict key that is not recorded. */
  ghost predicate MeterMissing(resources: seq<Resource>, meters: map<string, string>, j: int)
    requires 0 <= j < |resources|
  {
    CostMeterKey(resources[j].classifier).Some? && CostMeterKey(resources[j].classifier).value !in meters
  }

  /** The cost pass succeeds exactly when every cost resource finds its meter. */
  lemma {:induction false} CostPassSucceeds(virtualEntity: VirtualEntity, resources: seq<Resource>,
                                            meters: map<string, string>, acc: seq<EntitySpec>)
    ensures CostPass(virtualEntity, resources, meters, acc).Success?
        <==> forall j :: 0 <= j < |resources| ==> !MeterMissing(resources, meters, j)
    decreases |resources|
  {
    if resources != [] {
      var rest := resources[1..];
      forall j | 0 <= j < |rest|
        ensures MeterMissing(rest, meters, j) == MeterMissing(resources, meters, j + 1)
      {
        assert rest[j] == resources[j + 1];
      }
      if !MeterMissing(resources, meters, 0) {
        var acc' := if CostMeterKey(resources[0].classifier).Some?
          then acc + [CostSpec(virtualEntity, resources[0], meters[CostMeterKey(resources[0].classifier).value])]
          else acc;
        assert CostPass(virtualEntity, resources, meters, acc) == CostPass(virtualEntity, rest, meters, acc');
        CostPassSucceeds(virtualEntity, rest, meters, acc');
        if forall j :: 0 <= j < |rest| ==> !MeterMissing(rest, meters, j) {
          forall j | 0 <= j < |resources|
            ensures !MeterMissing(resources, meters, j)
          {
            if j > 0 {
              assert !MeterMissing(rest, meters, j - 1);
            }
          }
        }
      }
    }
  }

  /** A failing cost pass raises the KeyError of the first cost resource whose meter is missing. */
  lemma {:induction false} CostPassFirstMissing(virtualEntity: VirtualEntity, resources: seq<Resource>,
                                                meters: map<string, string>, acc: seq<EntitySpec>)
    returns (j: int)
    requires CostPass(virtualEntity, resources, meters, acc).Failure?
    ensures 0 <= j < |resources| && MeterMissing(resources, meters, j)
    ensures forall l :: 0 <= l < j ==> !MeterMissing(resources, meters, l)
    ensures CostPass(virtualEntity, resources, meters, acc).error
         == MissingMeter(CostMeterKey(resources[j].classifier).value)
    decreases |resources|
  {
    var rest := resources[1..];
    if MeterMissing(resources, meters, 0) {
      j := 0;
    } else {
      var acc' := if CostMeterKey(resources[0].classifier).Some?
        then acc + [CostSpec(virtualEntity, resources[0], meters[CostMeterKey(resources[0].classifier).value])]
        else acc;
      assert CostPass(virtualEntity, resources, meters, acc) == CostPass(virtualEntity, rest, meters, acc');
      var j' := CostPassFirstMissing(virtualEntity, rest, meters, acc');
      j := j' + 1;
      assert rest[j'] == resources[j];
      forall l | 0 <= l < j
        ensures !MeterMissing(resources, meters, l)
      {
        if l > 0 {
          assert rest[l - 1] == resources[l];
          assert !MeterMissing(rest, meters, l - 1);
        }
      }
    }
  }

  /** The first pass plans the three sensors of each consumption resource, consecutively. */
  lemma {:induction false} ConsumptionCovered(virtualEntity: VirtualEntity, resources: seq<Resource>,
                                              acc: seq<EntitySpec>, meters: map<string, string>, j: int)
    returns (p: int)
    requires 0 <= j < |resources| && IsConsumption(resources[j].classifier)
    ensures |acc| <= p && p + 3 <= |ConsumptionPass(virtualEntity, resources, acc, meters).0|
    ensures ConsumptionPass(virtualEntity, resources, acc, meters).0[p..p + 3]
         == ConsumptionSpecs(virtualEntity, resources[j])
    decreases |resources|
  {
    var r := resources[0];
    var acc' := if IsConsumption(r.classifier) then acc + ConsumptionSpecs(virtualEntity, r) else acc;
    var meters' := if IsConsumption(r.classifier) then meters[r.classifier := r.resourceId] else meters;
    assert ConsumptionPass(virtualEntity, resources, acc, meters)
        == ConsumptionPass(virtualEntity, resources[1..], acc', meters');
    if j == 0 {
      p := |acc|;
      ConsumptionPassAppends(virtualEntity, resources[1..], acc', meters');
      var out := ConsumptionPass(virtualEntity, resources[1..], acc', meters').0;
      assert out[..|acc'|] == acc';
      assert out[p..p + 3] == acc'[p..p + 3];
    } else {
      assert resources[1..][j - 1] == resources[j];
      p := ConsumptionCovered(virtualEntity, resources[1..], acc', meters', j - 1);
    }
  }

  /**
    The second pass plans a cost sensor for each cost resource, keyed on the
    meter the dict holds for its key when the pass runs.
   */
  lemma {:induction false} CostCovered(virtualEntity: VirtualEntity, resources: seq<Resource>,
                                       meters: map<string, string>, acc: seq<EntitySpec>, j: int)
    returns (p: int)
    requires 0 <= j < |resources| && CostMeterKey(resources[j].classifier).Some?
    requires CostPass(virtualEntity, resources, meters, acc).Success?
    ensures CostMeterKey(resources[j].classifier).value in meters
    ensures |acc| <= p < |CostPass(virtualEntity, resources, meters, acc).value|
    ensures CostPass(virtualEntity, resources, meters, acc).value[p]
         == CostSpec(virtualEntity, resources[j], meters[CostMeterKey(resources[j].classifier).value])
    decreases |resources|
  {
    var r := resources[0];
    var key := CostMeterKey(r.classifier);
    assert key.Some? ==> key.value in meters;
    var acc' := if key.Some? then acc + [CostSpec(virtualEntity, r, meters[key.value])] else acc;
    assert CostPass(virtualEntity, resources, meters, acc) == CostPass(virtualEntity, resources[1..], meters, acc');
    if j == 0 {
      p := |acc|;
      CostPassAppends(virtualEntity, resources[1..], meters, acc');
      assert CostPass(virtualEntity, resources[1..], meters, acc').value[p] == acc'[p];
    } else {
      assert resources[1..][j - 1] == resources[j];
      p := CostCovered(virtualEntity, resources[1..], meters, acc', j - 1);
    }
  }

  /** A successful plan starts with the accumulated specs. */
  lemma {:induction false} EntityPlanExtends(api: Api, virtualEntities: seq<VirtualEntity>,
                                             meters: map<string, string>, acc: seq<EntitySpec>)
    requires EntityPlan(api, virtualEntities, meters, acc).Success?
    ensures |acc| <= |EntityPlan(api, virtualEntities, meters, acc).value|
    ensures EntityPlan(api, virtualEntities, meters, acc).value[..|acc|] == acc
    decreases |virtualEntities|
  {
    if virtualEntities != [] {
      var block := VirtualEntityBlock(virtualEntities[0], api.resources(virtualEntities[0].id).value, meters).value;
      var acc' := acc + block.0;
      EntityPlanExtends(api, virtualEntities[1..], block.1, acc');
      var plan := EntityPlan(api, virtualEntities, meters, acc).value;
      assert plan[..|acc'|] == acc';
      assert plan[..|acc|] == acc'[..|acc|];
    }
  }

  /**
    The block of the `i`-th virtual entity, planned from the meters recorded
    by the entities before it, appears whole in the plan.
   */
  lemma {:induction false} BlockInPlan(api: Api, virtualEntities: seq<VirtualEntity>,
                                       meters: map<string, string>, acc: seq<EntitySpec>, i: int)
    returns (offset: int, before: map<string, string>)
    requires EntityPlan(api, virtualEntities, meters, acc).Success?
    requires 0 <= i < |virtualEntities|
    ensures api.resources(virtualEntities[i].id).Success?
    ensures VirtualEntityBlock(virtualEntities[i], api.resources(virtualEntities[i].id).value, before).Success?
    ensures var block := VirtualEntityBlock(virtualEntities[i], api.resources(virtualEntities[i].id).value, before).value.0;
            var plan := EntityPlan(api, virtualEntities, meters, acc).value;
            |acc| <= offset && offset + |block| <= |plan| && plan[offset..offset + |block|] == block
    decreases |virtualEntities|
  {
    var block := VirtualEntityBlock(virtualEntities[0], api.resources(virtualEntities[0].id).value, meters).value;
    var acc' := acc + block.0;
    var plan := EntityPlan(api, virtualEntities, meters, acc).value;
    assert plan == EntityPlan(api, virtualEntities[1..], block.1, acc').value;
    if i == 0 {
      offset, before := |acc|, meters;
      EntityPlanExtends(api, virtualEntities[1..], block.1, acc');
      assert plan[..|acc'|] == acc';
      assert plan[offset..offset + |block.0|] == acc'[offset..];
    } else {
      assert virtualEntities[1..][i - 1] == virtualEntities[i];
      offset, before := BlockInPlan(api, virtualEntities[1..], block.1, acc', i - 1);
    }
  }

  /** A slice of a window of `whole` is the same slice of the window's contents. */
  lemma SliceOfWindow(whole: seq<EntitySpec>, offset: int, window: seq<EntitySpec>, q: int, len: int)
    requires 0 <= offset && offset + |window| <= |whole| && whole[offset..offset + |window|] == window
    requires 0 <= q && 0 <= len && q + len <= |window|
    ensures whole[offset + q..offset + q + len] == window[q..q + len]
  {
    forall t | q <= t < q + len
      ensures whole[offset + t] == window[t]
    {
      assert whole[offset..offset + |window|][t] == window[t];
    }
  }

  /**
    `spec` was planned for one of `resources`, listed under `virtualEntity`:
    usage, standing-charge and rate specs only for an exact consumption
    classifier, cost specs only for an exact cost classifier.
   */
  ghost predicate SpecFrom(virtualEntity: VirtualEntity, resources: seq<Resource>, spec: EntitySpec)
  {
    && spec.virtualEntity == virtualEntity
    && spec.resource in resources
    && (spec.kind == CostKind ==> CostMeterKey(spec.resource.classifier).Some?)
    && (spec.kind != CostKind ==> IsConsumption(spec.resource.classifier))
  }

  /** The first pass plans entities only for consumption resources of the virtual entity. */
  lemma {:induction false} ConsumptionPassFrom(virtualEntity: VirtualEntity, resources: seq<Resource>,
                                               meters: map<string, string>)
    ensures forall k :: 0 <= k < |ConsumptionPass(virtualEntity, resources, [], meters).0| ==>
      SpecFrom(virtualEntity, resources, ConsumptionPass(virtualEntity, resources, [], meters).0[k])
    decreases |resources|
  {
    if resources != [] {
      var r := resources[0];
      var rest := resources[1..];
      var meters' := if IsConsumption(r.classifier) then meters[r.classifier := r.resourceId] else meters;
      var head := if IsConsumption(r.classifier) then ConsumptionSpecs(virtualEntity, r) else [];
      var tail := ConsumptionPass(virtualEntity, rest, [], meters').0;
      assert [] + head == head;
      assert ConsumptionPass(virtualEntity, resources, [], meters) == ConsumptionPass(virtualEntity, rest, head, meters');
      ConsumptionPassAppends(virtualEntity, rest, head, meters');
      ConsumptionPassFrom(virtualEntity, rest, meters');
      var out := ConsumptionPass(virtualEntity, resources, [], meters).0;
      assert out == head + tail;
      forall k | 0 <= k < |out|
        ensures SpecFrom(virtualEntity, resources, out[k])
      {
        if k < |head| {
          assert out[k] == head[k];
        } else {
          assert out[k] == tail[k - |head|];
          assert out[k].resource in rest;
        }
      }
    }
  }

  /** The second pass plans entities only for cost resources of the virtual entity. */
  lemma {:induction false} CostPassFrom(virtualEntity: VirtualEntity, resources: seq<Resource>,
                                        meters: map<string, string>)
    requires CostPass(virtualEntity, resources, meters, []).Success?
    ensures forall k :: 0 <= k < |CostPass(virtualEntity, resources, meters, []).value| ==>
      SpecFrom(virtualEntity, resources, CostPass(virtualEntity, resources, meters, []).value[k])
    decreases |resources|
  {
    if resources != [] {
      var r := resources[0];
      var rest := resources[1..];
      var key := CostMeterKey(r.classifier);
      assert key.Some? ==> key.value in meters;
      var head := if key.Some? then [CostSpec(virtualEntity, r, meters[key.value])] else [];
      assert [] + head == head;
      assert CostPass(virtualEntity, resources, meters, []) == CostPass(virtualEntity, rest, meters, head);
      CostPassAppends(virtualEntity, rest, meters, head);
      CostPassFrom(virtualEntity, rest, meters);
      var tail := CostPass(virtualEntity, rest, meters, []).value;
      var out := CostPass(virtualEntity, resources, meters, []).value;
      assert out == head + tail;
      forall k | 0 <= k < |out|
        ensures SpecFrom(virtualEntity, resources, out[k])
      {
        if k < |head| {
          assert out[k] == head[k];
        } else {
          assert out[k] == tail[k - |head|];
          assert out[k].resource in rest;
        }
      }
    }
  }

  /** A virtual entity's block plans entities only for its own consumption and cost resources. */
  lemma BlockFrom(virtualEntity: VirtualEntity, resources: seq<Resource>, meters: map<string, string>)
    requires VirtualEntityBlock(virtualEntity, resources, meters).Success?
    ensures forall k :: 0 <= k < |VirtualEntityBlock(virtualEntity, resources, meters).value.0| ==>
      SpecFrom(virtualEntity, resources, VirtualEntityBlock(virtualEntity, resources, meters).value.0[k])
  {
    var pass := ConsumptionPass(virtualEntity, resources, [], meters);
    ConsumptionPassFrom(virtualEntity, resources, meters);
    CostPassFrom(virtualEntity, resources, pass.1);
    var costs := CostPass(virtualEntity, resources, pass.1, []).value;
    var block := VirtualEntityBlock(virtualEntity, resources, meters).value.0;
    assert block == pass.0 + costs;
    forall k | 0 <= k < |block|
      ensures SpecFrom(virtualEntity, resources, block[k])
    {
      if k < |pass.0| {
        assert block[k] == pass.0[k];
      } else {
        assert block[k] == costs[k - |pass.0|];
      }
    }
  }

  /** `spec` was planned for a resource listed under one of the listed virtual entities. */
  ghost predicate FromListing(api: Api, virtualEntities: seq<VirtualEntity>, spec: EntitySpec)
  {
    && spec.virtualEntity in virtualEntities
    && api.resources(spec.virtualEntity.id).Success?
    && SpecFrom(spec.virtualEntity, api.resources(spec.virtualEntity.id).value, spec)
  }

  lemma {:induction false} EntityPlanFrom(api: Api, virtualEntities: seq<VirtualEntity>,
                                          meters: map<string, string>, acc: seq<EntitySpec>)
    requires EntityPlan(api, virtualEntities, meters, acc).Success?
    ensures forall k :: |acc| <= k < |EntityPlan(api, virtualEntities, meters, acc).value| ==>
      FromListing(api, virtualEntities, EntityPlan(api, virtualEntities, meters, acc).value[k])
    decreases |virtualEntities|
  {
    if virtualEntities != [] {
      var resources := api.resources(virtualEntities[0].id).value;
      var block := VirtualEntityBlock(virtualEntities[0], resources, meters).value;
      var acc' := acc + block.0;
      var plan := EntityPlan(api, virtualEntities, meters, acc).value;
      assert plan == EntityPlan(api, virtualEntities[1..], block.1, acc').value;
      BlockFrom(virtualEntities[0], resources, meters);
      EntityPlanFrom(api, virtualEntities[1..], block.1, acc');
      EntityPlanExtends(api, virtualEntities[1..], block.1, acc');
      forall k | |acc| <= k < |plan|
        ensures FromListing(api, virtualEntities, plan[k])
      {
        if k < |acc'| {
          assert plan[k] == plan[..|acc'|][k] == acc'[k] == block.0[k - |acc|];
        } else {
          assert FromListing(api, virtualEntities[1..], plan[k]);
          assert plan[k].virtualEntity in virtualEntities[1..];
        }
      }
    }
  }

  /**
    Only listed resources yield entities: usage, standing-charge and rate
    entities only for the exact consumption classifiers, cost entities
    only for the exact cost classifiers.
   */
  lemma SetupPlanFromListing(api: Api)
    requires SetupPlan(api).Success?
    ensures forall k :: 0 <= k < |SetupPlan(api).value| ==>
      FromListing(api, api.virtualEntities.value, SetupPlan(api).value[k])
  {
    EntityPlanFrom(api, api.virtualEntities.value, map[], []);
  }

  /** Setup lists the resources of every virtual entity it plans. */
  lemma SetupListsResources(api: Api, i: int)
    requires SetupPlan(api).Success?
    requires 0 <= i < |api.virtualEntities.value|
    ensures api.resources(api.virtualEntities.value[i].id).Success?
  {
    var offset, before := BlockInPlan(api, api.virtualEntities.value, map[], [], i);
  }

  /**
    Every consumption resource of every listed virtual entity yields its
    usage, standing-charge and rate sensors, consecutively.
   */
  lemma SetupCoversConsumption(api: Api, i: int, j: int) returns (p: int)
    requires SetupPlan(api).Success?
    requires 0 <= i < |api.virtualEntities.value|
    requires api.resources(api.virtualEntities.value[i].id).Success?
    requires 0 <= j < |api.resources(api.virtualEntities.value[i].id).value|
    requires IsConsumption(api.resources(api.virtualEntities.value[i].id).value[j].classifier)
    ensures 0 <= p && p + 3 <= |SetupPlan(api).value|
    ensures SetupPlan(api).value[p..p + 3]
         == ConsumptionSpecs(api.virtualEntities.value[i], api.resources(api.virtualEntities.value[i].id).value[j])
  {
    var virtualEntity := api.virtualEntities.value[i];
    var resources := api.resources(virtualEntity.id).value;
    var plan := SetupPlan(api).value;
    var offset, before := BlockInPlan(api, api.virtualEntities.value, map[], [], i);
    var pass := ConsumptionPass(virtualEntity, resources, [], before);
    var block := VirtualEntityBlock(virtualEntity, resources, before).value.0;
    var q := ConsumptionCovered(virtualEntity, resources, [], before, j);
    assert block[0..|pass.0|] == pass.0;
    SliceOfWindow(block, 0, pass.0, q, 3);
    p := offset + q;
    SliceOfWindow(plan, offset, block, q, 3);
  }

  /**
    Every cost resource of every listed virtual entity yields a cost sensor,
    keyed on the latest usage sensor of its meter's classifier planned
    before it: the value the meters dict holds at that point.
   */
  lemma SetupCoversCosts(api: Api, i: int, j: int) returns (p: int)
    requires SetupPlan(api).Success?
    requires 0 <= i < |api.virtualEntities.value|
    requires api.resources(api.virtualEntities.value[i].id).Success?
    requires 0 <= j < |api.resources(api.virtualEntities.value[i].id).value|
    requires CostMeterKey(api.resources(api.virtualEntities.value[i].id).value[j].classifier).Some?
    ensures 0 <= p < |SetupPlan(api).value|
    ensures SetupPlan(api).value[p]
         == CostSpec(api.virtualEntities.value[i], api.resources(api.virtualEntities.value[i].id).value[j],
                     SetupPlan(api).value[p].deviceId)
    ensures LatestUsage(SetupPlan(api).value, p,
                        CostMeterKey(api.resources(api.virtualEntities.value[i].id).value[j].classifier).value,
                        SetupPlan(api).value[p].deviceId)
  {
    var virtualEntity := api.virtualEntities.value[i];
    var resources := api.resources(virtualEntity.id).value;
    var plan := SetupPlan(api).value;
    var offset, before := BlockInPlan(api, api.virtualEntities.value, map[], [], i);
    var pass := ConsumptionPass(virtualEntity, resources, [], before);
    var costs := CostPass(virtualEntity, resources, pass.1, []).value;
    var block := VirtualEntityBlock(virtualEntity, resources, before).value.0;
    var q := CostCovered(virtualEntity, resources, pass.1, [], j);
    assert block == pass.0 + costs;
    assert block[|pass.0| + q] == costs[q];
    p := offset + |pass.0| + q;
    assert plan[offset..offset + |block|] == block;
    assert plan[p] == block[|pass.0| + q];
    SetupPlanShape(api);
  }

  // ---------------------------------------------------------------------------
  // The setup routine

  /** A registered sensor object. */
  datatype Entity =
    | Usage(usage: UsageSensor)
    | Standing(standing: StandingSensor)
    | Rate(rate: RateSensor)
    | Cost(cost: CostSensor)

  /** The identifying (immutable) part of a sensor object. */
  function Describe(entity: Entity): EntitySpec
  {
    match entity
    case Usage(u) => EntitySpec(UsageKind, u.uniqueId, u.resource, u.virtualEntity, u.resource.resourceId)
    case Standing(s) => EntitySpec(StandingKind, s.uniqueId, s.resource, s.virtualEntity, s.resource.resourceId)
    case Rate(r) => EntitySpec(RateKind, r.uniqueId, r.resource, r.virtualEntity, r.resource.resourceId)
    case Cost(c) => EntitySpec(CostKind, c.uniqueId, c.resource, c.virtualEntity, c.meterId)
  }

  ghost predicate DescribedBy(entities: seq<Entity>, specs: seq<EntitySpec>)
  {
    |entities| == |specs| && forall k :: 0 <= k < |entities| ==> Describe(entities[k]) == specs[k]
  }

  /** Each standing-charge sensor is followed by the rate sensor sharing its coordinator. */
  ghost predicate SharesCoordinators(entities: seq<Entity>)
  {
    forall k :: 0 <= k < |entities| && entities[k].Standing? ==>
      && k + 1 < |entities|
      && entities[k + 1].Rate?
      && entities[k + 1].rate.coordinator == entities[k].standing.coordinator
      && entities[k].standing.coordinator.resource == entities[k].standing.resource
  }

  /** The objects behind a registered entity: the sensor and, for tariff sensors, its coordinator. */
  function Objects(entity: Entity): set<object>
  {
    match entity
    case Usage(u) => {u}
    case Standing(s) => {s, s.coordinator}
    case Rate(r) => {r, r.coordinator}
    case Cost(c) => {c}
  }

  ghost function AllObjects(entities: seq<Entity>): set<object>
  {
    set k, o | 0 <= k < |entities| && o in Objects(entities[k]) :: o
  }

  /**
    A sensor as its constructor leaves it: no value yet, so its first update
    fetches whatever the minute; a tariff coordinator with no data, whose
    first refresh fetches the tariff.
   */
  ghost predicate Unstarted(entity: Entity)
    reads Objects(entity)
  {
    match entity
    case Usage(u) =>
      u.uniqueId == u.resource.resourceId && !u.initialised && u.nativeValue == None && u.lastReset == None
    case Standing(s) => s.nativeValue == None && Unfetched(s.coordinator)
    case Rate(r) => r.nativeValue == None && Unfetched(r.coordinator)
    case Cost(c) => c.uniqueId == c.resource.resourceId && !c.initialised && c.nativeValue == None
  }

  /** A tariff coordinator as its constructor leaves it: nothing fetched, nothing published. */
  ghost predicate Unfetched(coordinator: TariffCoordinator)
    reads coordinator
  {
    !coordinator.rateInitialised && !coordinator.standingInitialised && coordinator.data == map[]
  }

  /** Unstarted sensors and their coordinators satisfy their class invariants. */
  lemma UnstartedValid(entity: Entity)
    requires Unstarted(entity)
    ensures entity.Usage? ==> entity.usage.Valid()
    ensures entity.Cost? ==> entity.cost.Valid()
    ensures entity.Standing? ==> entity.standing.coordinator.Valid()
    ensures entity.Rate? ==> entity.rate.coordinator.Valid()
  {
  }

  ghost predicate AllUnstarted(entities: seq<Entity>)
    reads AllObjects(entities)
  {
    forall k :: 0 <= k < |entities| ==> Unstarted(entities[k])
  }

  lemma AppendUnstarted(entities: seq<Entity>, more: seq<Entity>)
    requires AllUnstarted(entities) && AllUnstarted(more)
    ensures AllUnstarted(entities + more)
    ensures AllObjects(entities + more) == AllObjects(entities) + AllObjects(more)
  {
    var all := entities + more;
    forall k | 0 <= k < |all|
      ensures Unstarted(all[k])
    {
      if k < |entities| {
        assert all[k] == entities[k];
      } else {
        assert all[k] == more[k - |entities|];
      }
    }
    forall o | o in AllObjects(all)
      ensures o in AllObjects(entities) + AllObjects(more)
    {
      var k :| 0 <= k < |all| && o in Objects(all[k]);
      if k < |entities| {
        assert all[k] == entities[k];
      } else {
        assert all[k] == more[k - |entities|];
      }
    }
    forall o | o in AllObjects(entities) + AllObjects(more)
      ensures o in AllObjects(all)
    {
      if o in AllObjects(entities) {
        var k :| 0 <= k < |entities| && o in Objects(entities[k]);
        assert all[k] == entities[k];
      } else {
        var k :| 0 <= k < |more| && o in Objects(more[k]);
        assert all[|entities| + k] == more[k];
      }
    }
  }

  /**
    `entities` are the sensor objects described by `specs`, each as its
    constructor left it, every standing/rate pair sharing a coordinator.
   */
  ghost predicate Registered(entities: seq<Entity>, specs: seq<EntitySpec>)
    reads AllObjects(entities)
  {
    DescribedBy(entities, specs) && SharesCoordinators(entities) && AllUnstarted(entities)
  }

  lemma AppendRegistered(entities: seq<Entity>, specs: seq<EntitySpec>, more: seq<Entity>, moreSpecs: seq<EntitySpec>)
    requires Registered(entities, specs) && Registered(more, moreSpecs)
    ensures Registered(entities + more, specs + moreSpecs)
    ensures AllObjects(entities + more) == AllObjects(entities) + AllObjects(more)
  {
    AppendEntities(entities, specs, more, moreSpecs);
    AppendUnstarted(entities, more);
  }

  lemma AppendEntities(entities: seq<Entity>, specs: seq<EntitySpec>, more: seq<Entity>, moreSpecs: seq<EntitySpec>)
    requires DescribedBy(entities, specs) && DescribedBy(more, moreSpecs)
    requires SharesCoordinators(entities) && SharesCoordinators(more)
    ensures DescribedBy(entities + more, specs + moreSpecs)
    ensures SharesCoordinators(entities + more)
  {
    var all := entities + more;
    forall k | 0 <= k < |all| && all[k].Standing?
      ensures k + 1 < |all| && all[k + 1].Rate? && all[k + 1].rate.coordinator == all[k].standing.coordinator
    {
      if k < |entities| {
        assert all[k] == entities[k] && all[k + 1] == entities[k + 1];
      } else {
        assert all[k] == more[k - |entities|] && all[k + 1] == more[k + 1 - |entities|];
      }
    }
  }

  /** One turn of the first pass, as `ConsumptionPass` takes it. */
  lemma ConsumptionPassStep(virtualEntity: VirtualEntity, resources: seq<Resource>, j: nat,
                            acc: seq<EntitySpec>, meters: map<string, string>)
    requires j < |resources|
    ensures var r := resources[j];
      ConsumptionPass(virtualEntity, resources[j..], acc, meters)
      == if IsConsumption(r.classifier)
         then ConsumptionPass(virtualEntity, resources[j + 1..], acc + ConsumptionSpecs(virtualEntity, r),
                              meters[r.classifier := r.resourceId])
         else ConsumptionPass(virtualEntity, resources[j + 1..], acc, meters)
  {
    assert resources[j..][0] == resources[j] && resources[j..][1..] == resources[j + 1..];
  }

  /** One turn of the second pass, as `CostPass` takes it. */
  lemma CostPassStep(virtualEntity: VirtualEntity, resources: seq<Resource>, j: nat,
                     meters: map<string, string>, acc: seq<EntitySpec>)
    requires j < |resources|
    ensures var key := CostMeterKey(resources[j].classifier);
      && (key.None? ==> CostPass(virtualEntity, resources[j..], meters, acc)
                        == CostPass(virtualEntity, resources[j + 1..], meters, acc))
      && (key.Some? && key.value !in meters ==>
            CostPass(virtualEntity, resources[j..], meters, acc) == Failure(MissingMeter(key.value)))
      && (key.Some? && key.value in meters ==>
            CostPass(virtualEntity, resources[j..], meters, acc)
            == CostPass(virtualEntity, resources[j + 1..], meters,
                        acc + [CostSpec(virtualEntity, resources[j], meters[key.value])]))
  {
    assert resources[j..][0] == resources[j] && resources[j..][1..] == resources[j + 1..];
  }

  /**
    The three sensors of one consumption resource: usage, then standing
    charge and rate sharing one new tariff coordinator.
   */
  method NewConsumptionSensors(virtualEntity: VirtualEntity, resource: Resource) returns (triple: seq<Entity>)
    ensures Registered(triple, ConsumptionSpecs(virtualEntity, resource))
    ensures fresh(AllObjects(triple))
  {
    var usage := new UsageSensor(resource, virtualEntity);
    var coordinator := new TariffCoordinator(resource);
    var standing := new StandingSensor(coordinator, resource, virtualEntity);
    var rate := new RateSensor(coordinator, resource, virtualEntity);
    TripleRegistered(virtualEntity, resource, usage, standing, rate);
    triple := [Usage(usage), Standing(standing), Rate(rate)];
  }

  lemma TripleRegistered(virtualEntity: VirtualEntity, resource: Resource,
                         usage: UsageSensor, standing: StandingSensor, rate: RateSensor)
    requires usage.resource == resource && usage.virtualEntity == virtualEntity && usage.uniqueId == resource.resourceId
    requires !usage.initialised && usage.nativeValue == None && usage.lastReset == None
    requires standing.resource == resource && standing.virtualEntity == virtualEntity
    requires standing.uniqueId == resource.resourceId + "-tariff" && standing.nativeValue == None
    requires rate.resource == resource && rate.virtualEntity == virtualEntity
    requires rate.uniqueId == resource.resourceId + "-rate" && rate.nativeValue == None
    requires rate.coordinator == standing.coordinator && standing.coordinator.resource == resource
    requires Unfetched(standing.coordinator)
    ensures Registered([Usage(usage), Standing(standing), Rate(rate)], ConsumptionSpecs(virtualEntity, resource))
    ensures AllObjects([Usage(usage), Standing(standing), Rate(rate)]) == {usage, standing, rate, rate.coordinator}
  {
    var triple := [Usage(usage), Standing(standing), Rate(rate)];
    assert Objects(triple[0]) == {usage};
    assert Objects(triple[1]) == {standing, standing.coordinator};
    assert Objects(triple[2]) == {rate, rate.coordinator};
  }

  /** The cost sensor of one cost resource, grouped under the meter `meterId`. */
  method NewCostSensor(virtualEntity: VirtualEntity, resource: Resource, meterId: string) returns (single: seq<Entity>)
    ensures Registered(single, [CostSpec(virtualEntity, resource, meterId)])
    ensures fresh(AllObjects(single))
  {
    var cost := new CostSensor(resource, virtualEntity, meterId);
    single := [Cost(cost)];
    assert Objects(single[0]) == {cost};
  }

  /** Append the sensors of one consumption resource to the entities list. */
  method AppendConsumptionSensors(entities: seq<Entity>, ghost specs: seq<EntitySpec>,
                                  virtualEntity: VirtualEntity, resource: Resource)
    returns (extended: seq<Entity>)
    requires Registered(entities, specs)
    ensures Registered(extended, specs + ConsumptionSpecs(virtualEntity, resource))
    ensures fresh(AllObjects(extended) - AllObjects(entities))
  {
    var triple := NewConsumptionSensors(virtualEntity, resource);
    AppendRegistered(entities, specs, triple, ConsumptionSpecs(virtualEntity, resource));
    extended := entities + triple;
  }

  /** Append the cost sensor of one cost resource to the entities list. */
  method AppendCostSensor(entities: seq<Entity>, ghost specs: seq<EntitySpec>,
                          virtualEntity: VirtualEntity, resource: Resource, meterId: string)
    returns (extended: seq<Entity>)
    requires Registered(entities, specs)
    ensures Registered(extended, specs + [CostSpec(virtualEntity, resource, meterId)])
    ensures fresh(AllObjects(extended) - AllObjects(entities))
  {
    var single := NewCostSensor(virtualEntity, resource, meterId);
    AppendRegistered(entities, specs, single, [CostSpec(virtualEntity, resource, meterId)]);
    extended := entities + single;
  }

  /**
    First pass over a virtual entity's resources, appending to the entities
    list: for each consumption resource, a usage sensor (recorded as the
    meter of its classifier), then a standing-charge and a rate sensor
    sharing one new tariff coordinator.
   */
  method AddConsumptionSensors(entities: seq<Entity>, ghost specs: seq<EntitySpec>, virtualEntity: VirtualEntity,
                               resources: seq<Resource>, meters: map<string, string>)
    returns (extended: seq<Entity>, metersAfter: map<string, string>)
    requires Registered(entities, specs)
    ensures Registered(extended, ConsumptionPass(virtualEntity, resources, specs, meters).0)
    ensures metersAfter == ConsumptionPass(virtualEntity, resources, specs, meters).1
    ensures fresh(AllObjects(extended) - AllObjects(entities))
  {
    extended, metersAfter := entities, meters;
    ghost var acc := specs;
    var j := 0;
    while j < |resources|
      invariant 0 <= j <= |resources|
      invariant Registered(extended, acc)
      invariant fresh(AllObjects(extended) - AllObjects(entities))
      invariant ConsumptionPass(virtualEntity, resources, specs, meters)
             == ConsumptionPass(virtualEntity, resources[j..], acc, metersAfter)
    {
      var resource := resources[j];
      ConsumptionPassStep(virtualEntity, resources, j, acc, metersAfter);
      if IsConsumption(resource.classifier) {
        extended := AppendConsumptionSensors(extended, acc, virtualEntity, resource);
        metersAfter := metersAfter[resource.classifier := resource.resourceId];
        acc := acc + ConsumptionSpecs(virtualEntity, resource);
      }
      j := j + 1;
    }
    assert resources[j..] == [];
  }

  /**
    Second pass, appending to the entities list: a cost sensor for each gas
    or electricity cost resource, keyed on the meter recorded for its
    supply; a missing meter raises.
   */
  method AddCostSensors(entities: seq<Entity>, ghost specs: seq<EntitySpec>, virtualEntity: VirtualEntity,
                        resources: seq<Resource>, meters: map<string, string>)
    returns (r: Result<seq<Entity>, Error>)
    requires Registered(entities, specs)
    ensures r.Failure? <==> CostPass(virtualEntity, resources, meters, specs).Failure?
    ensures r.Failure? ==> r.error == CostPass(virtualEntity, resources, meters, specs).error
    ensures r.Success? ==> Registered(r.value, CostPass(virtualEntity, resources, meters, specs).value)
    ensures r.Success? ==> fresh(AllObjects(r.value) - AllObjects(entities))
  {
    var extended := entities;
    ghost var acc := specs;
    var j := 0;
    while j < |resources|
      invariant 0 <= j <= |resources|
      invariant Registered(extended, acc)
      invariant fresh(AllObjects(extended) - AllObjects(entities))
      invariant CostPass(virtualEntity, resources, meters, specs) == CostPass(virtualEntity, resources[j..], meters, acc)
    {
      var resource := resources[j];
      CostPassStep(virtualEntity, resources, j, meters, acc);
      var key := CostMeterKey(resource.classifier);
      if key.Some? {
        if key.value !in meters {
          return Failure(MissingMeter(key.value));
        }
        extended := AppendCostSensor(extended, acc, virtualEntity, resource, meters[key.value]);
        acc := acc + [CostSpec(virtualEntity, resource, meters[key.value])];
      }
      j := j + 1;
    }
    assert resources[j..] == [];
    return Success(extended);
  }

  /** One turn of the loop over virtual entities, as `EntityPlan` takes it. */
  lemma EntityPlanStep(api: Api, virtualEntities: seq<VirtualEntity>, i: nat,
                       meters: map<string, string>, acc: seq<EntitySpec>)
    requires i < |virtualEntities|
    ensures var fetched := api.resources(virtualEntities[i].id);
      var plan := EntityPlan(api, virtualEntities[i..], meters, acc);
      && (fetched.Failure? ==> plan == Failure(fetched.error))
      && (fetched.Success? ==>
            var block := VirtualEntityBlock(virtualEntities[i], fetched.value, meters);
            && (block.Failure? ==> plan == Failure(block.error))
            && (block.Success? ==>
                  plan == EntityPlan(api, virtualEntities[i + 1..], block.value.1, acc + block.value.0)))
  {
    assert virtualEntities[i..][0] == virtualEntities[i] && virtualEntities[i..][1..] == virtualEntities[i + 1..];
  }

  /** Both passes run on the plan so far leave that plan followed by the virtual entity's block. */
  lemma BlockAppends(virtualEntity: VirtualEntity, resources: seq<Resource>,
                     meters: map<string, string>, acc: seq<EntitySpec>)
    ensures var pass := ConsumptionPass(virtualEntity, resources, acc, meters);
      var costs := CostPass(virtualEntity, resources, pass.1, pass.0);
      var block := VirtualEntityBlock(virtualEntity, resources, meters);
      && (costs.Failure? <==> block.Failure?)
      && (costs.Failure? ==> costs.error == block.error)
      && (costs.Success? ==> costs.value == acc + block.value.0 && pass.1 == block.value.1)
  {
    var first := ConsumptionPass(virtualEntity, resources, [], meters);
    ConsumptionPassAppends(virtualEntity, resources, acc, meters);
    CostPassAppends(virtualEntity, resources, first.1, acc + first.0);
    var costs := CostPass(virtualEntity, resources, first.1, []);
    if costs.Success? {
      assert acc + first.0 + costs.value == acc + (first.0 + costs.value);
    }
  }

  /**
    Set up the platform: authenticate, list the virtual entities, and build
    the sensors of each in two passes over its resources, appending to one
    entities list and sharing one meters dict across all of them. The
    sensors are those of SetupPlan, in order, each a new object as its
    constructor left it, and each standing-charge/rate pair shares one
    tariff coordinator.
   */
  method SetupEntry(api: Api) returns (r: Result<seq<Entity>, Error>)
    ensures r.Failure? <==> SetupPlan(api).Failure?
    ensures r.Failure? ==> r.error == SetupPlan(api).error
    ensures r.Success? ==> Registered(r.value, SetupPlan(api).value)
    ensures r.Success? ==> fresh(AllObjects(r.value))
  {
    if !api.authenticates {
      return Failure(AuthenticationFailed);
    }
    if api.virtualEntities.Failure? {
      return Failure(api.virtualEntities.error);
    }
    var virtualEntities := api.virtualEntities.value;
    var entities: seq<Entity> := [];
    var meters: map<string, string> := map[];
    ghost var specs: seq<EntitySpec> := [];
    var i := 0;
    while i < |virtualEntities|
      invariant 0 <= i <= |virtualEntities|
      invariant Registered(entities, specs) && fresh(AllObjects(entities))
      invariant SetupPlan(api) == EntityPlan(api, virtualEntities[i..], meters, specs)
    {
      var virtualEntity := virtualEntities[i];
      EntityPlanStep(api, virtualEntities, i, meters, specs);
      var fetched := api.resources(virtualEntity.id);
      if fetched.Failure? {
        return Failure(fetched.error);
      }
      var resources := fetched.value;
      BlockAppends(virtualEntity, resources, meters, specs);
      var withConsumption, metersAfter := AddConsumptionSensors(entities, specs, virtualEntity, resources, meters);
      ghost var passSpecs := ConsumptionPass(virtualEntity, resources, specs, meters).0;
      var withCosts := AddCostSensors(withConsumption, passSpecs, virtualEntity, resources, metersAfter);
      if withCosts.Failure? {
        return Failure(withCosts.error);
      }
      entities := withCosts.value;
      specs := CostPass(virtualEntity, resources, metersAfter, passSpecs).value;
      meters := metersAfter;
      i := i + 1;
    }
    assert virtualEntities[i..] == [];
    return Success(entities);
  }

  /**
    Setup leaves every usage sensor uninitialised, so its first refresh
    fetches the day's reading whatever the minute.
   */
  method FirstUsageUpdateFetches(api: Api, k: nat, now: DateTime) returns (outcome: Outcome)
    requires WellFormed(now)
    requires SetupPlan(api).Success? && k < |SetupPlan(api).value|
    requires SetupPlan(api).value[k].kind == UsageKind
    ensures outcome == FetchOutcome(DailyData(api, SetupPlan(api).value[k].resource.resourceId, now))
  {
    var r := SetupEntry(api);
    assert Describe(r.value[k]) == SetupPlan(api).value[k];
    var usage := r.value[k].usage;
    UnstartedValid(r.value[k]);
    assert usage in AllObjects(r.value) by {
      assert usage in Objects(r.value[k]);
    }
    outcome := usage.Update(api, now);
  }

  /**
    Setup leaves every tariff coordinator without data, so the first refresh
    of a standing-charge sensor's coordinator fetches the tariff whatever
    the minute.
   */
  method FirstTariffRefreshFetches(api: Api, k: nat, now: DateTime) returns (answer: Result<map<string, real>, Error>)
    requires SetupPlan(api).Success? && k < |SetupPlan(api).value|
    requires SetupPlan(api).value[k].kind == StandingKind
    ensures var fetched := api.tariff(SetupPlan(api).value[k].resource.resourceId);
      answer == if fetched.Success? then Success(TariffMap(fetched.value)) else Failure(fetched.error)
  {
    var r := SetupEntry(api);
    assert Describe(r.value[k]) == SetupPlan(api).value[k];
    var coordinator := r.value[k].standing.coordinator;
    UnstartedValid(r.value[k]);
    assert coordinator in AllObjects(r.value) by {
      assert coordinator in Objects(r.value[k]);
    }
    answer := coordinator.Refresh(api, now);
  }
}

=== FILE: wrappers.dfy ===
/** Option and Result datatypes, used for the exceptions the integration raises. */
module Wrappers {

  datatype Option<+T> = None | Some(value: T)

  datatype Result<+R, +E> = Success(value: R) | Failure(error: E)
}
